=== FILE: README.md ===
# kingshard backend core in Dafny

This project models the two engines at the bottom of the kingshard MySQL proxy:

- **The packet framer** (`mysql/packetio.go`). A logical MySQL message is cut into
  physical frames of at most `MaxPayloadLen` (0xFFFFFF) payload bytes. Each frame
  carries a 4-byte header: a 24-bit little-endian length and a one-byte sequence id.
  A frame shorter than `MaxPayloadLen` ends the message.
  - `PacketIO` keeps the per-connection `uint8` counter `Sequence`, which must match
    on every frame read and moves by one (mod 256) on every frame read or written.
  - `WritePacket` and `WritePacketBatch` write each header into the caller's buffer
    before sending that frame.
  - The network connection is modelled as two parts. Reading is the sequence of
    bytes the peer sends plus a read cursor. Writing is the sequence of bytes
    written so far plus the number of bytes the transport still accepts; a longer
    write is a short write.
- **The backend connection pool** (`backend/db.go`). `DB` keeps a bounded FIFO of
  connection slots `idleConns` with capacity `maxConnNum`. A slot is live or empty.
  - `Open` sizes the pool and fills it.
  - `PopConn` and `GetConn` borrow a slot and validate it for reuse (`tryReuse`).
  - `PushConn` gives a slot back. `closeConn` closes a slot and re-enqueues it.
  - `Close` shuts the pool down.
  - `BackendConn` is the borrowed handle whose `Close` decides between discarding
    and returning the connection.

The model is sequential. The channel is an `Option<seq<Conn>>`, where `None` is the
nil channel left by `Close`. A channel operation that would wait forever with a
single caller ends the call with `blocked` set: a send on the nil channel, a send
on a full channel, or a receive from an empty one. Nothing after that point runs.

Files:
- `wrappers.dfy`: `Option` and `Result`.
- `framing.dfy`: the wire format as pure functions, and the lemmas about it.
- `packetio.dfy`: the `PacketIO` class, proved against `framing.dfy`.
- `backend.dfy`: the `Conn` collaborator, `DB` and `BackendConn`.

Three behaviours of the code look unintended. The model follows the code in each:
- `closeConn` re-enqueues the same closed connection, not a fresh slot.
- `BackendConn.Close` empties the handle only when it returns the connection with
  `PushConn`.
- `Close` does not drain the pool; it hangs (see Findings).

## Model

| member | source | states |
|---|---|---|
| Framing.Advance | mysql/packetio.go:92 | the uint8 counter after n `Sequence++` steps (also lines 129, 145, 175, 186), wrapping at 256; AdvanceZero and AdvanceSucc state its laws |
| Framing.AdvanceSucc | mysql/packetio.go:92 | one `Sequence++` followed by n more is n+1 increments mod 256 |
| Framing.Uint24 | mysql/packetio.go:81 | the length field as `ReadPacket` decodes it, b0 + 256·b1 + 65536·b2; Le24RoundTrip states its relation to Le24 |
| Framing.Le24 | mysql/packetio.go:135-137 | the three length bytes `WritePacket` writes for the last frame, each truncated to 8 bits; Le24RoundTrip and FullLengthBytes state what they encode |
| Framing.Le24RoundTrip | mysql/packetio.go:135-137 | the three length bytes written for a frame length up to MaxPayloadLen decode (as at line 81) to that length |
| Framing.Header | mysql/packetio.go:118-122 | the four header bytes written in place before each frame (also lines 135-138, 168-172, 180-183): the length in three bytes, then the counter; FullLengthBytes and PatchedBufferStartsWithHeader state what a full frame's header holds and where it lands |
| Framing.FullLengthBytes | mysql/packetio.go:118-120 | the literal 0xff 0xff 0xff length bytes of a full frame are the encoding of MaxPayloadLen |
| Framing.Split | mysql/packetio.go:116-147 | the chunking of the write loop: full frames while MaxPayloadLen bytes remain, each with the next id, then the rest as the last frame; SplitShape states its shape |
| Framing.Frames | mysql/packetio.go:116-147 | the wire bytes of WritePacket: each frame of Split as its header then its payload; FramesUnfold, FramesLength and CompleteFramesBound state its properties |
| Framing.SplitShape | mysql/packetio.go:113-148 | a payload of L bytes becomes L / MaxPayloadLen + 1 frames with consecutive sequence ids from the starting counter; every frame but the last is full, the last holds L mod MaxPayloadLen bytes (possibly 0), and the frames' payloads concatenate back to the payload |
| Framing.TwoFullFramesAndThree | mysql/packetio.go:116-147 | a payload of 2·MaxPayloadLen + 3 bytes becomes two full frames with ids s and s+1, then a 3-byte frame with id s+2 |
| Framing.FramesUnfold | mysql/packetio.go:116-147 | the bytes sent are one full frame followed by the frames of the rest with the next id, or one final header followed by the payload |
| Framing.FramesLength | mysql/packetio.go:113-148 | the bytes sent are the payload plus 4 header bytes per frame |
| Framing.CompleteFrames | mysql/packetio.go:124-143 | the frames fully written before the transport's first short write, as the checks at lines 124-127 and 140-143 count them; CompleteFramesBound, CountFullFrame and CountLastFrame state its properties |
| Framing.CompleteFramesBound | mysql/packetio.go:124-131 | all frames are written completely when their bytes fit what the transport accepts, and fewer frames otherwise |
| Framing.PatchedBuffer | mysql/packetio.go:118-138 | writing every frame's header into the caller's buffer keeps its length |
| Framing.PatchedBufferStartsWithHeader | mysql/packetio.go:118-122 | the patched buffer starts with the first frame's header: 0xff 0xff 0xff when the payload reaches MaxPayloadLen, the payload length otherwise, then the counter |
| Framing.SingleFrameBufferIsWire | mysql/packetio.go:135-147 | for a payload shorter than MaxPayloadLen, the patched buffer is exactly the bytes sent |
| Framing.SecondHeaderOverwritesPayload | mysql/packetio.go:118-132 | a later frame's header is written over payload bytes of the caller's buffer, after the frame holding them was sent |
| Framing.PatchedBufferKeepsPayloadBytes | mysql/packetio.go:116-138 | header patching changes only the 4 bytes at each multiple of MaxPayloadLen |
| Framing.ReadSpec | mysql/packetio.go:74-110 | a read never consumes more than the bytes available |
| Framing.ReadSpecSuccess | mysql/packetio.go:74-110 | a successful read consumed one 4-byte header per frame, advanced the counter once per frame, and never returns a payload whose length is a multiple of MaxPayloadLen |
| Framing.ReadHeaderChecks | mysql/packetio.go:81-96 | length 0 and a sequence mismatch fail after the header with the counter unchanged; after a matching header the only failure is ErrBadConn; on a match the counter moves before the payload is read, so a short payload still consumes it |
| Framing.ReadWriteRoundTrip | mysql/packetio.go:74-110 | reading the frames written for a payload whose length is not a multiple of MaxPayloadLen returns the payload, consumes exactly those frames and ends with the writer's counter |
| Framing.MultipleOfMaxUnreadable | mysql/packetio.go:82-84 | the frames written for a payload of length 0 fail with InvalidPayloadLength, and for a nonzero multiple of MaxPayloadLen with ErrBadConn |
| Framing.ReadAcceptingEmptyFrame | mysql/packetio.go:74-110 | the reader with the zero-length check removed never consumes more than the bytes available |
| Framing.ReadAcceptingSuccess | mysql/packetio.go:74-110 | a success of the reader without the zero-length check consumed one header per frame and advanced the counter once per frame |
| Framing.IntendedRoundTrip | mysql/packetio.go:113-148 | with the zero-length frame accepted, every payload written reads back whole with the writer's counter |
| MysqlPacketIO.SectionOf | mysql/packetio.go:62-69 | the descriptor keeps the buffer; with a header the next length is a 24-bit value and the state is the buffer's last byte, without one both are 0 |
| MysqlPacketIO.PatchHeader | mysql/packetio.go:118-122 | writing a header changes exactly the 4 bytes at the offset |
| MysqlPacketIO.PatchFullFrame | mysql/packetio.go:118-132 | patching a full frame's header extends the patched prefix by one frame, and is the buffer patched up to and including that header should its write fail |
| MysqlPacketIO.CountFullFrame | mysql/packetio.go:124-132 | a full frame that fits is one more complete frame; one that does not is the frame the write fails on, whose header ends at MaxPayloadLen · CompleteFrames + 4 |
| MysqlPacketIO.CountLastFrame | mysql/packetio.go:140-145 | a last frame that does not fit is the frame the write fails on, whose header ends at MaxPayloadLen · CompleteFrames + 4 |
| MysqlPacketIO.PatchLastFrame | mysql/packetio.go:135-138 | patching the last header completes PatchedBuffer |
| MysqlPacketIO.SendFullFrameStep | mysql/packetio.go:124-131 | a full frame that fits keeps the written bytes a prefix of the frames with the counter one further; one that does not fit ends the write with ErrBadConn and the counter unmoved |
| MysqlPacketIO.SendLastFrameStep | mysql/packetio.go:140-147 | the last frame completes the frames and moves the counter, or is cut short with ErrBadConn |
| MysqlPacketIO.BatchFullFrameStep | mysql/packetio.go:172-176 | appending a full frame keeps the batch a prefix of `total` plus the frames, with the counter one further |
| MysqlPacketIO.BatchLastFrameStep | mysql/packetio.go:183-186 | appending the last frame completes `total` plus the frames, with the counter advanced once per frame |
| MysqlPacketIO.PacketIO.constructor | mysql/packetio.go:23-32 | a new connection has read and written nothing and its counter is 0 |
| MysqlPacketIO.PacketIO.ReadFull | mysql/packetio.go:94-96 | reads exactly n bytes, or consumes the rest of the stream and fails |
| MysqlPacketIO.PacketIO.Write | mysql/packetio.go:39-43 | a write succeeds exactly when all the bytes are accepted; a short write writes a prefix |
| MysqlPacketIO.PacketIO.WritePacketDirect | mysql/packetio.go:34-45 | no bytes gives an error and writes nothing; otherwise the bytes are written verbatim with ErrBadConn on a short write; the counter never moves |
| MysqlPacketIO.PacketIO.ReadPacketBySection | mysql/packetio.go:48-72 | length 0 returns no section and no error; otherwise exactly length (+4 with header) bytes are read and decoded by SectionOf, or the read fails with ErrBadConn; the counter never moves |
| MysqlPacketIO.PacketIO.ReadPacket | mysql/packetio.go:74-110 | result, bytes consumed and final counter are those of ReadSpec on the unread bytes |
| MysqlPacketIO.PacketIO.ReadPacketAcceptingEmptyFrame | mysql/packetio.go:74-110 | the corrected reader: result, bytes consumed and counter are those of ReadAcceptingEmptyFrame |
| MysqlPacketIO.PacketIO.SendFrame | mysql/packetio.go:118-131 | one frame: its header is patched in with the current counter, its bytes are written, and the counter moves only when the write was complete |
| MysqlPacketIO.PacketIO.SendFullFrame | mysql/packetio.go:116-133 | one turn of the write loop keeps the buffer and transport invariants or ends the write with ErrBadConn |
| MysqlPacketIO.PacketIO.SendLastFrame | mysql/packetio.go:135-147 | the last frame brings buffer and transport to their final state |
| MysqlPacketIO.PacketIO.WritePacket | mysql/packetio.go:113-148 | the bytes written are Frames(payload, counter), cut short by a short write; it succeeds exactly when they all fit; the counter moves once per complete frame; the buffer ends as PatchedBuffer, and after a short write it is PatchedBuffer up to MaxPayloadLen · CompleteFrames + 4 (the failing frame's header included) and the caller's bytes past that |
| MysqlPacketIO.PacketIO.AppendFrames | mysql/packetio.go:164-186 | appends Frames(payload, counter) to `total`, moves the counter once per frame and leaves the buffer as PatchedBuffer |
| MysqlPacketIO.PacketIO.AppendFullFrame | mysql/packetio.go:166-177 | one turn of the batch loop keeps the buffer and batch invariants |
| MysqlPacketIO.PacketIO.AppendLastFrame | mysql/packetio.go:179-186 | the last frame completes the batch, the counter and the buffer |
| MysqlPacketIO.PacketIO.WritePacketBatch | mysql/packetio.go:150-195 | with no data the batch is `total` itself and the counter stays; with data the batch is `total` plus the same frames WritePacket sends, with the same counter movement and buffer patching; the batch is written only when `direct`, with ErrBadConn on a short write |
| MysqlPacketIO.Loopback | mysql/packetio.go:74-148 | what one connection's WritePacket writes, a fresh connection's ReadPacket returns whole, with the reader's counter equal to the writer's (moved once per frame), unless the length is a multiple of MaxPayloadLen, when the read fails |
| MysqlPacketIO.LoopbackAcceptingEmptyFrame | mysql/packetio.go:113-148 | with the corrected reader every payload comes back, and both counters end moved once per frame |
| Backend.Conn.constructor | backend/db.go:73 | `new(Conn)` is an empty slot |
| Backend.Conn.Connect | backend/db.go:142 | records the call; a success leaves the connection live without a packet error |
| Backend.Conn.Close | backend/db.go:151 | the slot is empty again and the call is recorded; nothing is promised about the rest of the connection's state |
| Backend.Conn.Rollback | backend/db.go:171 | a success leaves the connection outside any transaction |
| Backend.Conn.Exec | backend/db.go:179 | a successful `set autocommit = 1` leaves autocommit on |
| Backend.Conn.SetCharset | backend/db.go:188 | a success sets the charset |
| Backend.Conn.Ping | backend/db.go:135 | records the call; liveness is unchanged |
| Backend.Sizing | backend/db.go:43-53 | a positive size is kept; below 16 it is connected in full, from 16 on a quarter (rounded down); otherwise 10000 and 16; always 1 ≤ InitConnNum ≤ maxConnNum |
| Backend.StateName | backend/db.go:85-96 | 0, 1, 2 render as "up", "down", "unknow", in both directions, and any other value as "" |
| Backend.ReuseSteps | backend/db.go:168-192 | the calls `tryReuse` makes on a live connection: only rollback, `set autocommit = 1` and resetting the charset to the default ever appear |
| Backend.ReuseStepsOrdered | backend/db.go:168-194 | reuse runs rollback, autocommit, charset in that order, each exactly when needed, and nothing for a clean connection |
| Backend.DB.constructor | backend/db.go:37-41 | the pool's identity and sizing, with no queue and no probe connection yet |
| Backend.DB.State | backend/db.go:85-96 | the rendering is non-empty exactly for the three states; Unknown renders "unknow" |
| Backend.DB.IdleConnCount | backend/db.go:98-102 | the queue length, 0 for a closed pool, never above maxConnNum |
| Backend.DB.GetConns | backend/db.go:120-125 | the current queue, which never exceeds its capacity |
| Backend.DB.NewConn | backend/db.go:139-147 | a fresh, live connection, or the Connect error and no connection |
| Backend.DB.Ping | backend/db.go:127-137 | the probe connection is created only when absent (and stays absent if that fails), then pinged; errors are passed on |
| Backend.DB.CloseConn | backend/db.go:149-156 | a nil connection is ignored; otherwise it is closed and the same connection re-enqueued; on a closed pool or a full queue the send waits forever |
| Backend.DB.TryReuse | backend/db.go:158-195 | an empty slot only connects; a live one makes exactly a prefix of ReuseSteps, stopping at the first failure and returning its error, and on success is live, outside a transaction, in autocommit with the default charset |
| Backend.DB.PopConn | backend/db.go:197-217 | a closed pool fails with ErrDatabaseClose and nothing changes; an empty queue waits; otherwise the front slot is removed and returned live after validation (a live slot has gone through exactly the ReuseSteps of its old state and comes out outside any transaction, in autocommit, with the default charset; an empty slot has been connected), or on validation failure closed and moved to the back with the error of the first call that failed (Connect for an empty slot, otherwise the failing ReuseSteps entry, followed by the Close), so the queue keeps its length; it never waits after dequeuing; only the front slot can change |
| Backend.DB.PushConn | backend/db.go:219-240 | nil: nothing; closed pool: closed and dropped; error: closed and re-enqueued; otherwise enqueued untouched when there is room and closed when full; the queue never exceeds capacity and only the error path can wait |
| Backend.DB.Close | backend/db.go:104-118 | the queue is detached; an already closed pool returns at once; otherwise the call waits forever exactly when the queue was non-empty, after closing its first connection |
| Backend.DB.CloseDraining | backend/db.go:104-118 | the corrected close: the queue is detached and every connection in it closed, without waiting |
| Backend.DB.Open | backend/db.go:35-79 | on success the pool is sized by Sizing, in state Unknown, with a live probe connection and a full queue of distinct connections, none of them the probe connection, whose first InitConnNum slots are live and the rest empty; on failure no pool and ErrDatabaseClose or ErrDBPoolInit |
| Backend.DB.GetConn | backend/db.go:259-265 | PopConn's outcomes, validation and its error included, with a successful connection wrapped in a fresh handle on this pool and a failed one closed at the back of the queue; only the front slot can change |
| Backend.DB.BorrowAndRelease | backend/db.go:248-265 | on an open pool with an idle slot, a borrow followed by releasing the handle never waits (a result the contract pins to false) and restores IdleConnCount |
| Backend.DB.OpenThenClose | backend/db.go:104-118 | whenever Open returns a pool, Close on it never returns |
| Backend.DB.OpenThenCloseDraining | backend/db.go:104-118 | after Open, the draining close leaves the pool closed with no idle slots |
| Backend.BackendConn.constructor | backend/db.go:264 | the handle pairs the connection with its pool |
| Backend.BackendConn.Close | backend/db.go:248-257 | an empty handle does nothing; a connection with a packet error is closed and re-enqueued (waiting forever on a closed or full pool) while the handle keeps it; any other is returned with PushConn (dropped and closed on a closed pool, closed on a full one, enqueued untouched otherwise), the handle is emptied and the call never waits |
| Backend.BackendConn.CloseClearing | backend/db.go:248-257 | the corrected release: the same two paths with the same effect on the pool, with the handle emptied on both |
| Backend.BackendConn.CloseTwice | backend/db.go:250-251 | releasing twice a handle with a packet error puts the same connection in the queue twice, whichever path the second release takes |
| Backend.BackendConn.CloseClearingTwice | backend/db.go:248-257 | with the corrected release the second release does nothing |

## Left out

- Concurrency: the mutex, the atomic store of `state`, and the channel hand-off between goroutines (backend/db.go:21, 62, 99-124). The pool is a sequential FIFO, and a channel operation that would wait forever becomes the `blocked` outcome.
- `ErrConnIsNil` (backend/db.go:207-209): a receive yields nil only from a channel closed while the receiver waits. No other caller can do that in a sequential model, and nil is never enqueued, so the queue holds only connections.
- The internals of `Conn` (Connect, Close, Rollback, exec, SetCharset, GetCharset, IsInTransaction, IsAutoCommit, Ping, pkgErr) are defined elsewhere and are not part of this model. Each call may succeed or fail. A call promises only what the pool relies on: `Close` leaves the slot empty and says nothing about its other fields.
- `mysql.DEFAULT_CHARSET` and `MaxPayloadLen` are defined outside the modelled files. They are taken as "utf8" and 0xFFFFFF.
- `bufio.Reader`, `net.Conn` and `io.Writer`: replaced by the byte stream with a cursor and the written bytes with a remaining budget. A transport error and a short count are one outcome, ErrBadConn.
- Error message texts (`fmt.Errorf`) become constructors of `PacketError` and `DbError`.
- Go panics are stated as preconditions. `WritePacket` and `WritePacketBatch` require a buffer of at least 4 bytes.
- MysqlPacketIO.PacketIO.ReadPacketBySection: requires `length + 4` to fit in 32 bits when a header is asked for. The `uint32(length+4)` wrap-around for lengths of 2^32 - 4 and more is not modelled.
- MysqlPacketIO.PacketIO.WritePacketBatch: the batch is a value. The sharing of `total`'s backing array that Go's `append` can cause is not modelled.
- Backend.DB.Open: does not say which of the two errors comes from which step (ErrDatabaseClose from the probe, ErrDBPoolInit from pre-filling). It also does not say at which pre-fill index the call waits forever instead of failing.
- The setter of the health state, and `Addr`: no transition of `state` exists in the modelled code beyond `Open`'s, and `Addr` only returns a field.
- proxy/server/conn_use.go is not part of this model.

## Findings

| source | as written | input that shows it | evidently intended | confidence | as-written member | corrected member |
|---|---|---|---|---|---|---|
| mysql/packetio.go:82-84 | `ReadPacket` rejects a frame whose declared length is 0, but `WritePacket` ends every payload whose length is a multiple of MaxPayloadLen with such a frame | a payload of 0 bytes, or of exactly 0xFFFFFF bytes, written by `WritePacket` and read back | accept the empty frame that terminates the message, so every written payload reads back | high, not executed | Framing.MultipleOfMaxUnreadable | Framing.IntendedRoundTrip |
| backend/db.go:107-114 | `Close` sets `idleConns` to nil and then drains through `closeConn`, which sends on the channel it reads back, now the nil one | `Open(addr, user, password, "test", 4)` succeeding, then `Close()`: the first `closeConn` waits forever | close every queued connection without re-enqueuing it | high, not executed | Backend.DB.OpenThenClose | Backend.DB.CloseDraining |
| backend/db.go:250-251 | `BackendConn.Close` keeps the handle after `closeConn` on a connection with a packet error | a handle whose connection has `pkgErr` set, on a pool with room, released twice: the same connection is queued twice and can be borrowed twice | empty the handle on both paths, so a second release does nothing | medium, not executed | Backend.BackendConn.CloseTwice | Backend.BackendConn.CloseClearingTwice |

=== FILE: backend.dfy ===
/**
 * The backend connection pool of backend/db.go, modelled sequentially.  The pool's
 * channel `idleConns` is a FIFO of connection slots whose capacity is
 * `maxConnNum`; the nil channel left behind by `Close` is `None`.  A channel
 * operation that would wait forever in a program with a single caller (a send on
 * the nil channel, a send on a full channel, a receive from an empty one) ends the
 * call with `blocked` set and nothing after it happens.
 */
module Backend {
  import opened Wrappers

  const Up: int := 0
  const Down: int := 1
  const Unknown: int := 2

  const InitConnCount: nat := 16
  const DefaultMaxConnNum: nat := 10000

  /** The charset every reused connection is reset to (mysql.DEFAULT_CHARSET). */
  const DefaultCharset: string := "utf8"
  /** The statement `tryReuse` runs on a connection whose autocommit is off. */
  const AutocommitOn: string := "set autocommit = 1"

  /** The calls the pool makes on a connection, in the order they were made. */
  datatype ConnOp =
    | Connect
    | Close
    | Rollback
    | Exec(stmt: string)
    | SetCharset(charset: string)
    | Ping

  datatype DbError =
    | ErrDatabaseClose
    | ErrDBPoolInit
      /** The error a call on a connection returned, passed on unchanged. */
    | ConnFailed(op: ConnOp)

  /**
   * A backend connection, as far as the pool sees it.  Its implementation is not
   * part of this model: every call may succeed or fail, and what a call promises is
   * only what the pool relies on.  `live` is `conn != nil`: an empty slot is a
   * `Conn` that is not live.
   */
  class Conn {
    var live: bool
    var inTx: bool
    var autoCommit: bool
    var charset: string
    /** Whether the last packet exchange failed (`pkgErr != nil`). */
    var pkgErr: bool
    ghost var calls: seq<ConnOp>

    /** `new(Conn)`: an empty slot. */
    constructor ()
      ensures !live && !inTx && !autoCommit && charset == "" && !pkgErr && calls == []
    {
      live := false;
      inTx := false;
      autoCommit := false;
      charset := "";
      pkgErr := false;
      calls := [];
    }

    method Connect(addr: string, user: string, password: string, dbName: string) returns (ok: bool)
      modifies this
      ensures calls == old(calls) + [ConnOp.Connect]
      ensures ok ==> live && !pkgErr
    {
      ok := *;
      live, inTx, autoCommit, charset, pkgErr := *, *, *, *, *;
      if ok {
        live, pkgErr := true, false;
      }
      calls := calls + [ConnOp.Connect];
    }

    /** Closing drops the transport: the slot is empty again; nothing is promised about the rest of its state. */
    method Close()
      modifies this
      ensures !live && calls == old(calls) + [ConnOp.Close]
    {
      inTx, autoCommit, charset, pkgErr := *, *, *, *;
      live := false;
      calls := calls + [ConnOp.Close];
    }

    method Rollback() returns (ok: bool)
      modifies this
      ensures calls == old(calls) + [ConnOp.Rollback]
      ensures ok ==> !inTx && live == old(live) && autoCommit == old(autoCommit) && charset == old(charset)
    {
      ok := *;
      if ok {
        inTx := false;
      } else {
        live, inTx, autoCommit, charset, pkgErr := *, *, *, *, *;
      }
      calls := calls + [ConnOp.Rollback];
    }

    method Exec(stmt: string) returns (ok: bool)
      modifies this
      ensures calls == old(calls) + [ConnOp.Exec(stmt)]
      ensures ok ==> live == old(live) && inTx == old(inTx) && charset == old(charset)
      ensures ok && stmt == AutocommitOn ==> autoCommit
    {
      ok := *;
      if ok {
        autoCommit := *;
        if stmt == AutocommitOn {
          autoCommit := true;
        }
      } else {
        live, inTx, autoCommit, charset, pkgErr := *, *, *, *, *;
      }
      calls := calls + [ConnOp.Exec(stmt)];
    }

    method SetCharset(cs: string) returns (ok: bool)
      modifies this
      ensures calls == old(calls) + [ConnOp.SetCharset(cs)]
      ensures ok ==> charset == cs && live == old(live) && inTx == old(inTx) && autoCommit == old(autoCommit)
    {
      ok := *;
      if ok {
        charset := cs;
      } else {
        live, inTx, autoCommit, charset, pkgErr := *, *, *, *, *;
      }
      calls := calls + [ConnOp.SetCharset(cs)];
    }

    method Ping() returns (ok: bool)
      modifies this
      ensures calls == old(calls) + [ConnOp.Ping]
      ensures live == old(live)
    {
      ok := *;
      pkgErr := *;
      calls := calls + [ConnOp.Ping];
    }
  }

  /**
   * The sizing rule of `Open`: a positive `maxConnNum` is kept, and a small pool is
   * connected in full while a larger one is connected to a quarter of its size;
   * anything else falls back to DefaultMaxConnNum slots with InitConnCount
   * connected.
   */
  function Sizing(maxConnNum: int): (r: (nat, nat))
    ensures 1 <= r.1 <= r.0
    ensures maxConnNum > 0 ==> r.0 == maxConnNum
    ensures maxConnNum > 0 && maxConnNum < 16 ==> r.1 == r.0
    ensures maxConnNum >= 16 ==> 4 * r.1 <= r.0 < 4 * (r.1 + 1)
    ensures maxConnNum <= 0 ==> r == (DefaultMaxConnNum, InitConnCount)
  {
    if 0 < maxConnNum then
      if maxConnNum < 16 then (maxConnNum, maxConnNum) else (maxConnNum, maxConnNum / 4)
    else
      (DefaultMaxConnNum, InitConnCount)
  }

  /** The rendering of the pool's health state; any other value renders as "". */
  function StateName(state: int): (name: string)
    ensures name == "up" <==> state == Up
    ensures name == "down" <==> state == Down
    ensures name == "unknow" <==> state == Unknown
    ensures name == "" <==> !(Up <= state <= Unknown)
  {
    if state == Up then "up"
    else if state == Down then "down"
    else if state == Unknown then "unknow"
    else ""
  }

  /**
   * The calls `tryReuse` makes on a live connection in the given state before it
   * can be handed out: a rollback when it is inside a transaction, then turning
   * autocommit back on, then resetting the charset, each only when needed.
   */
  function ReuseSteps(inTx: bool, autoCommit: bool, charset: string): (steps: seq<ConnOp>)
    ensures forall op :: op in steps ==>
      op == ConnOp.Rollback || op == ConnOp.Exec(AutocommitOn) || op == ConnOp.SetCharset(DefaultCharset)
  {
    (if inTx then [ConnOp.Rollback] else [])
    + (if !autoCommit then [ConnOp.Exec(AutocommitOn)] else [])
    + (if charset != DefaultCharset then [ConnOp.SetCharset(DefaultCharset)] else [])
  }

  /** The position of a reuse step in the fixed order rollback, autocommit, charset. */
  function StepRank(op: ConnOp): nat
  {
    match op
    case Rollback => 0
    case Exec(_) => 1
    case SetCharset(_) => 2
    case _ => 3
  }

  /**
   * The reuse steps come in the fixed order, each at most once, and there are none
   * exactly when the connection is already clean.
   */
  lemma ReuseStepsOrdered(inTx: bool, autoCommit: bool, charset: string)
    ensures var steps := ReuseSteps(inTx, autoCommit, charset);
      && |steps| <= 3
      && (forall i, j :: 0 <= i < j < |steps| ==> StepRank(steps[i]) < StepRank(steps[j]))
      && (steps == [] <==> !inTx && autoCommit && charset == DefaultCharset)
      && (ConnOp.Rollback in steps <==> inTx)
      && (ConnOp.Exec(AutocommitOn) in steps <==> !autoCommit)
      && (ConnOp.SetCharset(DefaultCharset) in steps <==> charset != DefaultCharset)
  {
    var steps := ReuseSteps(inTx, autoCommit, charset);
    assert forall op :: op in steps ==> StepRank(op) < 3;
  }

  class DB {
    const addr: string
    const user: string
    const password: string
    const dbName: string
    var state: int
    var maxConnNum: nat
    var InitConnNum: nat
    /** The slot queue; `None` once the pool is closed (the nil channel). */
    var idleConns: Option<seq<Conn>>
    var checkConn: Conn?

    ghost predicate Valid()
      reads this
    {
      && 1 <= InitConnNum <= maxConnNum
      && (idleConns.Some? ==> |idleConns.value| <= maxConnNum)
    }

    /** The connections queued in the pool. */
    ghost function Queued(): set<Conn>
      reads this
    {
      if idleConns.Some? then set c | c in idleConns.value else {}
    }

    /** The connection at the front of the queue, the only one a borrow touches. */
    ghost function Front(): set<Conn>
      reads this
    {
      if idleConns.Some? && |idleConns.value| > 0 then {idleConns.value[0]} else {}
    }

    /** `new(DB)` with the fields `Open` sets before it connects anything. */
    constructor (addr: string, user: string, password: string, dbName: string, maxConnNum: nat, initConnNum: nat)
      requires 1 <= initConnNum <= maxConnNum
      ensures Valid()
      ensures this.addr == addr && this.user == user && this.password == password && this.dbName == dbName
      ensures this.maxConnNum == maxConnNum && InitConnNum == initConnNum
      ensures state == Up && idleConns == None && checkConn == null
    {
      this.addr := addr;
      this.user := user;
      this.password := password;
      this.dbName := dbName;
      this.maxConnNum := maxConnNum;
      InitConnNum := initConnNum;
      state := Up;
      idleConns := None;
      checkConn := null;
    }

    /** `State`: the rendering of the health state. */
    function State(): (name: string)
      reads this
      ensures name != "" <==> Up <= state <= Unknown
      ensures state == Unknown ==> name == "unknow"
    {
      StateName(state)
    }

    /** `IdleConnCount`: the slots waiting in the queue, 0 once the pool is closed. */
    function IdleConnCount(): (n: nat)
      requires Valid()
      reads this
      ensures n <= maxConnNum
      ensures idleConns.None? ==> n == 0
      ensures idleConns.Some? ==> n == |idleConns.value|
    {
      if idleConns.Some? then |idleConns.value| else 0
    }

    /** `getConns`: the current queue, never longer than its capacity. */
    function GetConns(): (conns: Option<seq<Conn>>)
      requires Valid()
      reads this
      ensures conns.Some? <==> idleConns.Some?
      ensures conns.Some? ==> |conns.value| <= maxConnNum && conns.value == idleConns.value
    {
      idleConns
    }

    /** `newConn`: a fresh connection, handed out only when it connected. */
    method NewConn() returns (co: Conn?, err: Option<DbError>)
      ensures (co == null) == err.Some?
      ensures err.Some? ==> err.value == ConnFailed(ConnOp.Connect)
      ensures co != null ==> fresh(co) && co.live && !co.pkgErr && co.calls == [ConnOp.Connect]
    {
      var c := new Conn();
      var ok := c.Connect(addr, user, password, dbName);
      if !ok {
        return null, Some(ConnFailed(ConnOp.Connect));
      }
      return c, None;
    }

    /**
     * `Ping`: connects the probe connection when there is none (and keeps none if
     * that fails), then pings it, passing its error on.
     */
    method Ping() returns (err: Option<DbError>)
      modifies this`checkConn, checkConn
      ensures old(checkConn) != null ==>
        && checkConn == old(checkConn) && checkConn.calls == old(checkConn.calls) + [ConnOp.Ping]
        && (err.Some? ==> err.value == ConnFailed(ConnOp.Ping))
      ensures old(checkConn) == null && checkConn == null ==> err == Some(ConnFailed(ConnOp.Connect))
      ensures old(checkConn) == null && checkConn != null ==>
        && fresh(checkConn) && checkConn.calls == [ConnOp.Connect, ConnOp.Ping]
        && (err.Some? ==> err.value == ConnFailed(ConnOp.Ping))
    {
      if checkConn == null {
        var co;
        co, err := NewConn();
        checkConn := co;
        if err.Some? {
          return;
        }
      }
      var ok := checkConn.Ping();
      err := if ok then None else Some(ConnFailed(ConnOp.Ping));
    }

    /**
     * `closeConn`: closes `co` and puts the same (now empty) slot back at the end
     * of the queue.  The send waits forever on a closed pool (the nil channel) and
     * on a full queue.
     */
    method CloseConn(co: Conn?) returns (blocked: bool)
      requires Valid()
      modifies this`idleConns, co
      ensures Valid()
      ensures co == null ==> !blocked && idleConns == old(idleConns)
      ensures co != null ==> !co.live && co.calls == old(co.calls) + [ConnOp.Close]
      ensures co != null ==>
        if old(idleConns).Some? && |old(idleConns).value| < maxConnNum
        then !blocked && idleConns == Some(old(idleConns).value + [co])
        else blocked && idleConns == old(idleConns)
    {
      if co != null {
        co.Close();
        var conns := GetConns();
        if conns.None? || |conns.value| == maxConnNum {
          return true;
        }
        idleConns := Some(conns.value + [co]);
      }
      return false;
    }

    /**
     * `tryReuse`: an empty slot is only connected.  A live connection goes through
     * ReuseSteps in order, stopping at the first call that fails and passing its
     * error on; when none fails it comes out live, outside any transaction, in
     * autocommit and with the default charset.
     */
    method TryReuse(co: Conn) returns (err: Option<DbError>)
      modifies co
      ensures !old(co.live) ==> co.calls == old(co.calls) + [ConnOp.Connect]
      ensures !old(co.live) && err.None? ==> co.live && !co.pkgErr
      ensures !old(co.live) && err.Some? ==> err.value == ConnFailed(ConnOp.Connect)
      ensures old(co.live) ==>
        var steps := ReuseSteps(old(co.inTx), old(co.autoCommit), old(co.charset));
        && (err.None? ==> co.calls == old(co.calls) + steps && co.live && !co.inTx && co.autoCommit && co.charset == DefaultCharset)
        && (err.Some? ==> exists k :: 1 <= k <= |steps| && co.calls == old(co.calls) + steps[..k] && err.value == ConnFailed(steps[k - 1]))
    {
      if !co.live {
        var ok := co.Connect(addr, user, password, dbName);
        if !ok {
          return Some(ConnFailed(ConnOp.Connect));
        }
        return None;
      }
      ghost var calls0 := co.calls;
      ghost var steps := ReuseSteps(co.inTx, co.autoCommit, co.charset);
      ghost var done: seq<ConnOp> := [];
      if co.inTx {
        var ok := co.Rollback();
        done := [ConnOp.Rollback];
        if !ok {
          assert steps[..1] == done;
          return Some(ConnFailed(ConnOp.Rollback));
        }
      }
      if !co.autoCommit {
        var ok := co.Exec(AutocommitOn);
        done := done + [ConnOp.Exec(AutocommitOn)];
        if !ok {
          assert steps[..|done|] == done;
          return Some(ConnFailed(ConnOp.Exec(AutocommitOn)));
        }
      }
      if co.charset != DefaultCharset {
        var ok := co.SetCharset(DefaultCharset);
        done := done + [ConnOp.SetCharset(DefaultCharset)];
        if !ok {
          assert steps[..|done|] == done;
          return Some(ConnFailed(ConnOp.SetCharset(DefaultCharset)));
        }
      }
      assert co.calls == calls0 + done && done == steps;
      return None;
    }

    /**
     * `PopConn`: takes the slot at the front of the queue and validates it.  A slot
     * that fails validation is closed and put back at the end, so the queue keeps
     * its length; on a closed pool the call fails at once, on an empty queue it
     * waits forever.
     */
    method PopConn() returns (co: Conn?, err: Option<DbError>, blocked: bool)
      requires Valid()
      modifies this`idleConns, Front()
      ensures Valid()
      ensures old(idleConns).None? ==> !blocked && co == null && err == Some(ErrDatabaseClose) && idleConns == None
      ensures old(idleConns) == Some([]) ==> blocked && idleConns == old(idleConns)
      ensures old(idleConns).Some? && |old(idleConns).value| > 0 ==>
        var q := old(idleConns).value;
        && !blocked
        && (err.None? ==> co == q[0] && co.live && idleConns == Some(q[1..]))
        && (err.None? && old(q[0].live) ==>
              && !co.inTx && co.autoCommit && co.charset == DefaultCharset
              && co.calls == old(q[0].calls) + ReuseSteps(old(q[0].inTx), old(q[0].autoCommit), old(q[0].charset)))
        && (err.None? && !old(q[0].live) ==> co.calls == old(q[0].calls) + [ConnOp.Connect])
        && (err.Some? ==> co == null && err.value.ConnFailed? && !q[0].live && idleConns == Some(q[1..] + [q[0]]))
        && (err.Some? && !old(q[0].live) ==> err.value == ConnFailed(ConnOp.Connect) && q[0].calls == old(q[0].calls) + [ConnOp.Connect, ConnOp.Close])
        && (err.Some? && old(q[0].live) ==>
              var steps := ReuseSteps(old(q[0].inTx), old(q[0].autoCommit), old(q[0].charset));
              exists k :: 1 <= k <= |steps| && err.value == ConnFailed(steps[k - 1]) && q[0].calls == old(q[0].calls) + steps[..k] + [ConnOp.Close])
    {
      var conns := GetConns();
      if conns.None? {
        return null, Some(ErrDatabaseClose), false;
      }
      if |conns.value| == 0 {
        return null, None, true;
      }
      var c := conns.value[0];
      idleConns := Some(conns.value[1..]);
      err := TryReuse(c);
      if err.Some? {
        blocked := CloseConn(c);
        return null, err, blocked;
      }
      return c, None, false;
    }

    /**
     * `PushConn`: gives `co` back.  Nothing happens to a nil connection; on a
     * closed pool it is closed and dropped; after an error it is closed and
     * re-enqueued (`closeConn`); otherwise it is enqueued when there is room and
     * closed when the queue is full.  Only the error path can wait.
     */
    method PushConn(co: Conn?, hasErr: bool) returns (blocked: bool)
      requires Valid()
      modifies this`idleConns, co
      ensures Valid()
      ensures co == null ==> !blocked && idleConns == old(idleConns)
      ensures co != null && old(idleConns).None? ==> !blocked && !co.live && idleConns == None
      ensures co != null && old(idleConns).Some? && hasErr ==>
        && !co.live
        && (blocked <==> |old(idleConns).value| == maxConnNum)
        && (!blocked ==> idleConns == Some(old(idleConns).value + [co]))
      ensures co != null && old(idleConns).Some? && !hasErr ==>
        && !blocked
        && (|old(idleConns).value| < maxConnNum ==> idleConns == Some(old(idleConns).value + [co]) && unchanged(co))
        && (|old(idleConns).value| == maxConnNum ==> idleConns == old(idleConns) && !co.live)
    {
      if co == null {
        return false;
      }
      var conns := GetConns();
      if conns.None? {
        co.Close();
        return false;
      }
      if hasErr {
        blocked := CloseConn(co);
        return;
      }
      if |conns.value| < maxConnNum {
        idleConns := Some(conns.value + [co]);
      } else {
        co.Close();
      }
      return false;
    }

    /**
     * `Close` as written: detaches the queue, then drains it through `closeConn`.
     * Since the queue is already detached, the first `closeConn` sends on the nil
     * channel: the call closes the first connection and then waits forever.  A
     * pool that is already closed returns at once.
     */
    method Close() returns (blocked: bool)
      modifies this`idleConns, Front()
      requires Valid()
      ensures Valid() && idleConns == None
      ensures old(idleConns).None? ==> !blocked
      ensures old(idleConns).Some? ==> (blocked <==> |old(idleConns).value| > 0)
      ensures old(idleConns).Some? && |old(idleConns).value| > 0 ==> !old(idleConns).value[0].live
    {
      var connChannel := idleConns;
      idleConns := None;
      if connChannel.None? {
        return false;
      }
      var q := connChannel.value;
      var i := 0;
      blocked := false;
      while i < |q| && !blocked
        invariant 0 <= i <= |q|
        invariant idleConns == None
        invariant blocked <==> i > 0
        invariant i > 0 ==> !q[0].live
      {
        blocked := CloseConn(q[i]);
        i := i + 1;
      }
    }

    /**
     * The drain `Close` is meant to perform: detach the queue and close every
     * connection in it, without putting any back.
     */
    method CloseDraining()
      modifies this`idleConns, Queued()
      requires Valid()
      ensures Valid() && idleConns == None
      ensures old(idleConns).Some? ==> forall c :: c in old(idleConns).value ==> !c.live
    {
      var connChannel := idleConns;
      idleConns := None;
      if connChannel.None? {
        return;
      }
      var q := connChannel.value;
      var i := 0;
      while i < |q|
        invariant 0 <= i <= |q|
        invariant idleConns == None
        invariant forall j :: 0 <= j < i ==> !q[j].live
      {
        q[i].Close();
        i := i + 1;
      }
    }

    /**
     * `Open`: sizes the pool, connects the probe connection, then fills the queue
     * to capacity, the first InitConnNum slots connected and the rest empty.  A
     * failing probe gives ErrDatabaseClose; a failing pre-fill connection closes
     * the pool, which waits forever unless nothing was queued yet, and otherwise
     * gives ErrDBPoolInit.
     */
    static method Open(addr: string, user: string, password: string, dbName: string, maxConnNum: int)
      returns (db: DB?, err: Option<DbError>, blocked: bool)
      ensures !blocked ==> (db == null <==> err.Some?)
      ensures blocked ==> db == null && err.None?
      ensures err.Some? ==> err.value == ErrDatabaseClose || err.value == ErrDBPoolInit
      ensures db != null ==>
        && fresh(db) && db.Valid()
        && (db.maxConnNum, db.InitConnNum) == Sizing(maxConnNum)
        && db.addr == addr && db.user == user && db.password == password && db.dbName == dbName
        && db.state == Unknown && db.State() == "unknow"
        && db.checkConn != null && db.checkConn.live
        && db.idleConns.Some? && db.IdleConnCount() == db.maxConnNum
        && (forall c :: c in db.Queued() ==> fresh(c))
        && (forall i, j :: 0 <= i < j < |db.idleConns.value| ==> db.idleConns.value[i] != db.idleConns.value[j])
        && db.checkConn !in db.Queued()
        && (forall i :: 0 <= i < db.InitConnNum ==> db.idleConns.value[i].live)
        && (forall i :: db.InitConnNum <= i < db.maxConnNum ==> !db.idleConns.value[i].live)
    {
      var (max, init) := Sizing(maxConnNum);
      var d := new DB(addr, user, password, dbName, max, init);
      var check;
      check, err := d.NewConn();
      d.checkConn := check;
      if err.Some? {
        blocked := d.Close();
        return null, Some(ErrDatabaseClose), blocked;
      }
      d.idleConns := Some([]);
      d.state := Unknown;
      var i := 0;
      while i < max
        invariant 0 <= i <= max
        invariant d.Valid() && d.maxConnNum == max && d.InitConnNum == init
        invariant d.addr == addr && d.user == user && d.password == password && d.dbName == dbName
        invariant d.state == Unknown && d.checkConn == check && check.live
        invariant d.idleConns.Some? && |d.idleConns.value| == i
        invariant forall j :: 0 <= j < i ==> fresh(d.idleConns.value[j])
        invariant forall j, k :: 0 <= j < k < i ==> d.idleConns.value[j] != d.idleConns.value[k]
        invariant check !in d.idleConns.value
        invariant forall j :: 0 <= j < i && j < init ==> d.idleConns.value[j].live
        invariant forall j :: init <= j < i ==> !d.idleConns.value[j].live
        invariant fresh(d) && fresh(check)
      {
        if i < init {
          var conn;
          conn, err := d.NewConn();
          if err.Some? {
            blocked := d.Close();
            if blocked {
              return null, None, true;
            }
            return null, Some(ErrDBPoolInit), false;
          }
          d.idleConns := Some(d.idleConns.value + [conn]);
        } else {
          var conn := new Conn();
          d.idleConns := Some(d.idleConns.value + [conn]);
        }
        i := i + 1;
      }
      return d, None, false;
    }

    /** `GetConn`: a successful `PopConn` wrapped in a handle. */
    method GetConn() returns (bc: BackendConn?, err: Option<DbError>, blocked: bool)
      requires Valid()
      modifies this`idleConns, Front()
      ensures Valid()
      ensures old(idleConns).None? ==> !blocked && bc == null && err == Some(ErrDatabaseClose) && idleConns == None
      ensures old(idleConns) == Some([]) ==> blocked && idleConns == old(idleConns)
      ensures old(idleConns).Some? && |old(idleConns).value| > 0 ==>
        var q := old(idleConns).value;
        && !blocked
        && (err.None? ==> bc != null && fresh(bc) && bc.conn == q[0] && bc.db == this && q[0].live && idleConns == Some(q[1..]))
        && (err.None? && old(q[0].live) ==>
              && !q[0].inTx && q[0].autoCommit && q[0].charset == DefaultCharset
              && q[0].calls == old(q[0].calls) + ReuseSteps(old(q[0].inTx), old(q[0].autoCommit), old(q[0].charset)))
        && (err.None? && !old(q[0].live) ==> q[0].calls == old(q[0].calls) + [ConnOp.Connect])
        && (err.Some? ==> bc == null && err.value.ConnFailed? && !q[0].live && idleConns == Some(q[1..] + [q[0]]))
        && (err.Some? && !old(q[0].live) ==> err.value == ConnFailed(ConnOp.Connect) && q[0].calls == old(q[0].calls) + [ConnOp.Connect, ConnOp.Close])
        && (err.Some? && old(q[0].live) ==>
              var steps := ReuseSteps(old(q[0].inTx), old(q[0].autoCommit), old(q[0].charset));
              exists k :: 1 <= k <= |steps| && err.value == ConnFailed(steps[k - 1]) && q[0].calls == old(q[0].calls) + steps[..k] + [ConnOp.Close])
    {
      var c;
      c, err, blocked := PopConn();
      if blocked || err.Some? {
        return null, err, blocked;
      }
      bc := new BackendConn(c, this);
    }

    /**
     * A borrow followed by the release of the handle, on an open pool with an idle
     * slot: neither waits, and the pool ends with as many idle slots as before,
     * whether validation failed, the connection saw an error, or all went well.
     */
    method BorrowAndRelease() returns (waited: bool)
      requires Valid() && idleConns.Some? && |idleConns.value| > 0
      modifies this`idleConns, Front()
      ensures !waited
      ensures Valid() && IdleConnCount() == old(IdleConnCount())
    {
      var bc, err;
      bc, err, waited := GetConn();
      if err.Some? {
        return;
      }
      waited := bc.Close();
    }

    /**
     * `Open` followed by `Close`: whenever `Open` returns a pool, its queue is full
     * and `Close` never returns.
     */
    static method OpenThenClose(addr: string, user: string, password: string, dbName: string, maxConnNum: int)
      returns (isOpen: bool, closeBlocked: bool)
      ensures isOpen ==> closeBlocked
    {
      var db, err, blocked := Open(addr, user, password, dbName, maxConnNum);
      isOpen := db != null;
      closeBlocked := false;
      if db != null {
        assert db.Front() <= db.Queued();
        closeBlocked := db.Close();
      }
    }

    /** The same with the draining close: every queued connection ends closed and the pool is closed. */
    static method OpenThenCloseDraining(addr: string, user: string, password: string, dbName: string, maxConnNum: int)
      returns (db: DB?)
      ensures db != null ==> db.Valid() && db.idleConns == None && db.IdleConnCount() == 0
    {
      var err, blocked;
      db, err, blocked := Open(addr, user, password, dbName, maxConnNum);
      if db != null {
        db.CloseDraining();
      }
    }
  }

  /**
   * The pool after `PushConn` gives back `c` (then live exactly when `wasLive`)
   * without an error, from queue `before` to queue `after`: on a closed pool it is
   * closed and dropped, on a full queue it is closed and the queue kept, and
   * otherwise it is enqueued (the methods that use this state separately that the
   * enqueued connection is untouched).
   */
  ghost predicate PushedBack(c: Conn, wasLive: bool, before: Option<seq<Conn>>, after: Option<seq<Conn>>, maxConnNum: nat)
    reads c
  {
    && (before.None? ==> after == None && !c.live)
    && (before.Some? && |before.value| >= maxConnNum ==> after == before && !c.live)
    && (before.Some? && |before.value| < maxConnNum ==> after == Some(before.value + [c]) && c.live == wasLive)
  }

  /** A borrowed connection together with the pool it goes back to. */
  class BackendConn {
    var conn: Conn?
    const db: DB

    constructor (conn: Conn?, db: DB)
      ensures this.conn == conn && this.db == db
    {
      this.conn := conn;
      this.db := db;
    }

    /**
     * `Close`: a connection whose last exchange failed is closed and re-enqueued
     * (`closeConn`) and the handle keeps it; any other is given back with
     * `PushConn` and the handle is emptied.  A handle already emptied does nothing.
     */
    method Close() returns (blocked: bool)
      requires db.Valid()
      modifies this`conn, db`idleConns, conn
      ensures db.Valid()
      ensures old(conn) == null ==> !blocked && conn == null && db.idleConns == old(db.idleConns)
      ensures old(conn) != null && old(conn.pkgErr) ==>
        && conn == old(conn) && !conn.live
        && if old(db.idleConns).Some? && |old(db.idleConns).value| < db.maxConnNum
           then !blocked && db.idleConns == Some(old(db.idleConns).value + [conn])
           else blocked && db.idleConns == old(db.idleConns)
      ensures old(conn) != null && !old(conn.pkgErr) ==>
        && conn == null && !blocked
        && PushedBack(old(conn), old(conn.live), old(db.idleConns), db.idleConns, db.maxConnNum)
      ensures old(conn) != null && !old(conn.pkgErr) && old(db.idleConns).Some? && |old(db.idleConns).value| < db.maxConnNum ==>
        unchanged(old(conn))
    {
      if conn != null {
        if conn.pkgErr {
          blocked := db.CloseConn(conn);
        } else {
          blocked := db.PushConn(conn, conn.pkgErr);
          conn := null;
        }
      } else {
        blocked := false;
      }
    }

    /** The release the handle is meant to perform: as `Close`, but the handle is emptied on both paths. */
    method CloseClearing() returns (blocked: bool)
      requires db.Valid()
      modifies this`conn, db`idleConns, conn
      ensures db.Valid()
      ensures conn == null
      ensures old(conn) == null ==> !blocked && db.idleConns == old(db.idleConns)
      ensures old(conn) != null && old(conn.pkgErr) ==>
        && !old(conn).live
        && if old(db.idleConns).Some? && |old(db.idleConns).value| < db.maxConnNum
           then !blocked && db.idleConns == Some(old(db.idleConns).value + [old(conn)])
           else blocked && db.idleConns == old(db.idleConns)
      ensures old(conn) != null && !old(conn.pkgErr) ==>
        && !blocked
        && PushedBack(old(conn), old(conn.live), old(db.idleConns), db.idleConns, db.maxConnNum)
      ensures old(conn) != null && !old(conn.pkgErr) && old(db.idleConns).Some? && |old(db.idleConns).value| < db.maxConnNum ==>
        unchanged(old(conn))
    {
      if conn != null {
        if conn.pkgErr {
          blocked := db.CloseConn(conn);
        } else {
          blocked := db.PushConn(conn, conn.pkgErr);
        }
        conn := null;
      } else {
        blocked := false;
      }
    }

    /**
     * Releasing twice a handle whose connection saw an error, on a pool with room
     * for two more slots: whichever path the second `Close` takes (the packet error
     * may or may not survive the first `Close`), it enqueues the same connection
     * again, so the queue holds it twice.
     */
    method CloseTwice() returns (c: Conn)
      requires db.Valid() && conn != null && conn.pkgErr
      requires db.idleConns.Some? && |db.idleConns.value| + 2 <= db.maxConnNum
      modifies this`conn, db`idleConns, conn
      ensures c == old(conn) && db.idleConns == Some(old(db.idleConns).value + [c, c])
    {
      c := conn;
      ghost var q := db.idleConns.value;
      var blocked := Close();
      blocked := Close();
      assert q + [c] + [c] == q + [c, c];
    }

    /** The same with `CloseClearing`: the second release does nothing, and the connection is queued once. */
    method CloseClearingTwice() returns (c: Conn)
      requires db.Valid() && conn != null && conn.pkgErr
      requires db.idleConns.Some? && |db.idleConns.value| + 2 <= db.maxConnNum
      modifies this`conn, db`idleConns, conn
      ensures c == old(conn) && db.idleConns == Some(old(db.idleConns).value + [c])
    {
      c := conn;
      var blocked := CloseClearing();
      blocked := CloseClearing();
    }
  }
}

=== FILE: framing.dfy ===
/**
 * The MySQL client/server wire format as pure values: a 4-byte frame header
 * (3-byte little-endian payload length, 1-byte sequence id), the split of a
 * logical message into physical frames, the bytes `WritePacket` emits, the
 * headers it patches into the caller's buffer, and what `ReadPacket` decodes
 * from a byte stream.  The stateful reader and writer in module MysqlPacketIO
 * are proved against these functions.
 */
module Framing {
  import opened Wrappers

  /** Go's `byte` (uint8). */
  type Byte = b: int | 0 <= b < 0x100

  /** Largest payload one physical frame carries; its length field is 0xff 0xff 0xff. */
  const MaxPayloadLen: nat := 0xFF_FFFF

  /** Errors of the packet layer. */
  datatype PacketError =
    | ErrBadConn                              // short read or short write on the transport
    | InvalidPayloadLength(length: nat)       // a frame header declared length < 1
    | InvalidSequence(got: Byte, want: Byte)  // header sequence id differs from the counter
    | EmptyPacket                             // WritePacketDirect was handed no bytes

  /** The uint8 sequence counter after `n` increments (`Sequence++`) starting from `s`. */
  function Advance(s: Byte, n: nat): Byte
  {
    (s + n) % 0x100
  }

  lemma AdvanceZero(s: Byte)
    ensures Advance(s, 0) == s
  {
  }

  lemma AdvanceSucc(s: Byte, n: nat)
    ensures Advance(Advance(s, 1), n) == Advance(s, n + 1)
  {
  }

  /** A 24-bit little-endian length field, decoded as `uint32(b0) | uint32(b1)<<8 | uint32(b2)<<16`. */
  function Uint24(b0: Byte, b1: Byte, b2: Byte): nat
  {
    b0 + b1 * 0x100 + b2 * 0x1_0000
  }

  /** The length bytes `byte(n), byte(n >> 8), byte(n >> 16)`, each truncated to 8 bits. */
  function Le24(n: nat): seq<Byte>
  {
    [n % 0x100, (n / 0x100) % 0x100, (n / 0x1_0000) % 0x100]
  }

  lemma Le24RoundTrip(n: nat)
    requires n <= MaxPayloadLen
    ensures Uint24(Le24(n)[0], Le24(n)[1], Le24(n)[2]) == n
  {
  }

  /** The literal full-frame length bytes agree with the encoding of MaxPayloadLen. */
  lemma FullLengthBytes()
    ensures Le24(MaxPayloadLen) == [0xff, 0xff, 0xff]
  {
  }

  function Header(length: nat, s: Byte): seq<Byte>
  {
    Le24(length) + [s]
  }

  /** One physical frame: its sequence id and its payload (the length field is the payload's size). */
  datatype Frame = Frame(seqId: Byte, payload: seq<Byte>)

  function Encode(f: Frame): seq<Byte>
  {
    Header(|f.payload|, f.seqId) + f.payload
  }

  /** The bytes of consecutive frames, in order. */
  function Serialize(fs: seq<Frame>): seq<Byte>
  {
    if fs == [] then [] else Encode(fs[0]) + Serialize(fs[1..])
  }

  /** The logical message carried by consecutive frames. */
  function Join(fs: seq<Frame>): seq<Byte>
  {
    if fs == [] then [] else fs[0].payload + Join(fs[1..])
  }

  /** Number of frames a payload of `n` bytes is written as: the full ones, then a shorter last one. */
  function FrameCount(n: nat): nat
  {
    n / MaxPayloadLen + 1
  }

  /** How `WritePacket` chunks payload `p` when its counter starts at `s`. */
  function Split(p: seq<Byte>, s: Byte): (fs: seq<Frame>)
    decreases |p|
  {
    if |p| < MaxPayloadLen then [Frame(s, p)]
    else [Frame(s, p[..MaxPayloadLen])] + Split(p[MaxPayloadLen..], Advance(s, 1))
  }

  /** The bytes `WritePacket` puts on the wire for payload `p` with counter `s`. */
  function Frames(p: seq<Byte>, s: Byte): seq<Byte>
  {
    Serialize(Split(p, s))
  }

  lemma DivStep(n: nat)
    requires n >= MaxPayloadLen
    ensures (n - MaxPayloadLen) / MaxPayloadLen == n / MaxPayloadLen - 1
    ensures (n - MaxPayloadLen) % MaxPayloadLen == n % MaxPayloadLen
  {
  }

  /**
   * The chunking promised for `WritePacket`: floor(L / Max) full frames, then one
   * frame of L mod Max bytes (possibly none), with consecutive sequence ids from
   * `s`, and together they carry exactly the payload.
   */
  lemma {:induction false} SplitShape(p: seq<Byte>, s: Byte)
    ensures |Split(p, s)| == FrameCount(|p|)
    ensures forall i :: 0 <= i < |Split(p, s)| ==> Split(p, s)[i].seqId == Advance(s, i)
    ensures forall i :: 0 <= i < |Split(p, s)| - 1 ==> |Split(p, s)[i].payload| == MaxPayloadLen
    ensures |Split(p, s)[|Split(p, s)| - 1].payload| == |p| % MaxPayloadLen
    ensures Join(Split(p, s)) == p
    decreases |p|
  {
    if |p| >= MaxPayloadLen {
      var rest := p[MaxPayloadLen..];
      var s1 := Advance(s, 1);
      SplitShape(rest, s1);
      DivStep(|p|);
      var fs := Split(p, s);
      assert fs[1..] == Split(rest, s1);
      forall i | 1 <= i < |fs|
        ensures fs[i].seqId == Advance(s, i)
      {
        assert fs[i] == Split(rest, s1)[i - 1];
        AdvanceSucc(s, i - 1);
      }
      assert Join(fs) == p[..MaxPayloadLen] + Join(Split(rest, s1));
      assert p == p[..MaxPayloadLen] + rest;
    }
  }

  /** The scenario of a 2*Max + 3 byte message: frames of Max, Max and 3 bytes, ids s, s+1, s+2. */
  lemma TwoFullFramesAndThree(p: seq<Byte>, s: Byte)
    requires |p| == 2 * MaxPayloadLen + 3
    ensures |Split(p, s)| == 3
    ensures |Split(p, s)[0].payload| == MaxPayloadLen && Split(p, s)[0].seqId == s
    ensures |Split(p, s)[1].payload| == MaxPayloadLen && Split(p, s)[1].seqId == Advance(s, 1)
    ensures |Split(p, s)[2].payload| == 3 && Split(p, s)[2].seqId == Advance(s, 2)
  {
    SplitShape(p, s);
  }

  /** One step of `Frames`: a full frame and the frames of the rest, or the single last frame. */
  lemma FramesUnfold(p: seq<Byte>, s: Byte)
    ensures |p| >= MaxPayloadLen ==>
      Frames(p, s) == Header(MaxPayloadLen, s) + p[..MaxPayloadLen] + Frames(p[MaxPayloadLen..], Advance(s, 1))
    ensures |p| < MaxPayloadLen ==> Frames(p, s) == Header(|p|, s) + p
  {
    var fs := Split(p, s);
    if |p| >= MaxPayloadLen {
      assert fs[1..] == Split(p[MaxPayloadLen..], Advance(s, 1));
    } else {
      assert fs[1..] == [];
      assert Serialize(fs) == Encode(fs[0]) + Serialize(fs[1..]);
    }
  }

  /** Each frame adds a 4-byte header to its share of the payload. */
  lemma {:induction false} FramesLength(p: seq<Byte>, s: Byte)
    ensures |Frames(p, s)| == |p| + 4 * FrameCount(|p|)
    decreases |p|
  {
    FramesUnfold(p, s);
    if |p| >= MaxPayloadLen {
      FramesLength(p[MaxPayloadLen..], Advance(s, 1));
      DivStep(|p|);
    }
  }

  /**
   * Number of frames of payload `p` that reach a transport accepting only `budget`
   * more bytes before a short write: the frames written completely.
   */
  function CompleteFrames(p: seq<Byte>, budget: nat): nat
    decreases |p|
  {
    if |p| >= MaxPayloadLen then
      if MaxPayloadLen + 4 <= budget then 1 + CompleteFrames(p[MaxPayloadLen..], budget - (MaxPayloadLen + 4)) else 0
    else if |p| + 4 <= budget then 1 else 0
  }

  /** With room for every byte of the message, every frame is written completely; otherwise some is not. */
  lemma {:induction false} CompleteFramesBound(p: seq<Byte>, s: Byte, budget: nat)
    ensures |Frames(p, s)| <= budget ==> CompleteFrames(p, budget) == FrameCount(|p|)
    ensures budget < |Frames(p, s)| ==> CompleteFrames(p, budget) < FrameCount(|p|)
    decreases |p|
  {
    FramesUnfold(p, s);
    if |p| >= MaxPayloadLen {
      DivStep(|p|);
      FramesLength(p[MaxPayloadLen..], Advance(s, 1));
      if MaxPayloadLen + 4 <= budget {
        CompleteFramesBound(p[MaxPayloadLen..], Advance(s, 1), budget - (MaxPayloadLen + 4));
      }
    }
  }

  /**
   * The caller's buffer (4 reserved header bytes, then the payload) after
   * `WritePacket` or `WritePacketBatch` has written every frame header into it:
   * frame k's header overwrites bytes k*Max .. k*Max+3, because the source
   * re-slices `data = data[MaxPayloadLen:]` and writes the next header at its front.
   */
  function PatchedBuffer(buf: seq<Byte>, s: Byte): (r: seq<Byte>)
    requires |buf| >= 4
    ensures |r| == |buf|
    decreases |buf|
  {
    if |buf| - 4 >= MaxPayloadLen then
      Header(MaxPayloadLen, s) + buf[4..MaxPayloadLen] + PatchedBuffer(buf[MaxPayloadLen..], Advance(s, 1))
    else
      Header(|buf| - 4, s) + buf[4..]
  }

  /** The patched buffer starts with the first frame's header. */
  lemma PatchedBufferStartsWithHeader(buf: seq<Byte>, s: Byte)
    requires |buf| >= 4
    ensures PatchedBuffer(buf, s)[..4] == Header(if |buf| - 4 >= MaxPayloadLen then MaxPayloadLen else |buf| - 4, s)
  {
  }

  /** A message that fits one frame leaves the buffer holding exactly the bytes sent on the wire. */
  lemma SingleFrameBufferIsWire(buf: seq<Byte>, s: Byte)
    requires 4 <= |buf| < MaxPayloadLen + 4
    ensures PatchedBuffer(buf, s) == Frames(buf[4..], s)
  {
    FramesUnfold(buf[4..], s);
  }

  /**
   * A message of more than one frame does not leave its payload intact: bytes
   * Max .. Max+3 of the caller's buffer now hold the second frame's header.
   */
  lemma SecondHeaderOverwritesPayload(buf: seq<Byte>, s: Byte)
    requires |buf| - 4 >= MaxPayloadLen
    ensures |Frames(buf[4..], s)| >= MaxPayloadLen + 8
    ensures PatchedBuffer(buf, s)[MaxPayloadLen..MaxPayloadLen + 4] == Frames(buf[4..], s)[MaxPayloadLen + 4..MaxPayloadLen + 8]
  {
    var p := buf[4..];
    var s1 := Advance(s, 1);
    var rest := buf[MaxPayloadLen..];
    var h := if |rest| - 4 >= MaxPayloadLen then MaxPayloadLen else |rest| - 4;
    assert |Frames(p, s)| >= MaxPayloadLen + 8 by {
      FramesLength(p, s);
      DivStep(|p|);
    }
    assert rest[4..] == p[MaxPayloadLen..];
    assert Frames(p, s)[MaxPayloadLen + 4..MaxPayloadLen + 8] == Header(h, s1) by {
      FramesUnfold(p, s);
      FramesUnfold(p[MaxPayloadLen..], s1);
    }
    assert PatchedBuffer(buf, s)[MaxPayloadLen..MaxPayloadLen + 4] == Header(h, s1) by {
      PatchedBufferStartsWithHeader(rest, s1);
    }
  }

  /** Every byte outside a header slot (offset mod Max below 4) keeps the caller's value. */
  lemma {:induction false} PatchedBufferKeepsPayloadBytes(buf: seq<Byte>, s: Byte, i: nat)
    requires |buf| >= 4 && i < |buf| && i % MaxPayloadLen >= 4
    ensures PatchedBuffer(buf, s)[i] == buf[i]
    decreases |buf|
  {
    if |buf| - 4 >= MaxPayloadLen && i >= MaxPayloadLen {
      DivStep(i);
      PatchedBufferKeepsPayloadBytes(buf[MaxPayloadLen..], Advance(s, 1), i - MaxPayloadLen);
    }
  }

  /** One full frame of the writer's loop, seen from the buffer slice that starts at its header. */
  lemma FullFrameStep(buf: seq<Byte>, s: Byte, budget: nat)
    requires |buf| - 4 >= MaxPayloadLen
    ensures Frames(buf[4..], s)[..MaxPayloadLen + 4] == Header(MaxPayloadLen, s) + buf[4..MaxPayloadLen + 4]
    ensures Frames(buf[4..], s)[MaxPayloadLen + 4..] == Frames(buf[MaxPayloadLen + 4..], Advance(s, 1))
    ensures PatchedBuffer(buf, s) == Header(MaxPayloadLen, s) + buf[4..MaxPayloadLen] + PatchedBuffer(buf[MaxPayloadLen..], Advance(s, 1))
    ensures buf[MaxPayloadLen..][4..] == buf[MaxPayloadLen + 4..]
    ensures MaxPayloadLen + 4 <= budget ==>
      CompleteFrames(buf[4..], budget) == 1 + CompleteFrames(buf[MaxPayloadLen + 4..], budget - (MaxPayloadLen + 4))
    ensures budget < MaxPayloadLen + 4 ==> CompleteFrames(buf[4..], budget) == 0
  {
    var p := buf[4..];
    FramesUnfold(p, s);
    assert p[MaxPayloadLen..] == buf[MaxPayloadLen + 4..];
    assert p[..MaxPayloadLen] == buf[4..MaxPayloadLen + 4];
  }

  /** The last, short frame of the writer, seen from the buffer slice that starts at its header. */
  lemma LastFrameStep(buf: seq<Byte>, s: Byte, budget: nat)
    requires 4 <= |buf| < MaxPayloadLen + 4
    ensures Frames(buf[4..], s) == Header(|buf| - 4, s) + buf[4..]
    ensures PatchedBuffer(buf, s) == Header(|buf| - 4, s) + buf[4..]
    ensures CompleteFrames(buf[4..], budget) == if |buf| <= budget then 1 else 0
  {
    FramesUnfold(buf[4..], s);
  }

  /** What `ReadPacket` returns, how many stream bytes it consumed, and the counter afterwards. */
  datatype ReadOutcome = ReadOutcome(result: Result<seq<Byte>, PacketError>, consumed: nat, counter: Byte)

  /** A payload shorter than MaxPayloadLen is one frame, and not a multiple of MaxPayloadLen unless empty. */
  lemma ShortFrameCount(n: nat)
    requires n < MaxPayloadLen
    ensures FrameCount(n) == 1 && n % MaxPayloadLen == n
  {
  }

  /** Counting one more full frame in front of `n` payload bytes that took `c` stream bytes. */
  lemma FullFrameCount(n: nat, c: nat, s: Byte)
    ensures FrameCount(MaxPayloadLen + n) == FrameCount(n) + 1
    ensures (MaxPayloadLen + n) % MaxPayloadLen == n % MaxPayloadLen
    ensures c == n + 4 * FrameCount(n) ==> 4 + MaxPayloadLen + c == (MaxPayloadLen + n) + 4 * FrameCount(MaxPayloadLen + n)
    ensures Advance(Advance(s, 1), FrameCount(n)) == Advance(s, FrameCount(MaxPayloadLen + n))
  {
    DivStep(MaxPayloadLen + n);
    AdvanceSucc(s, FrameCount(n));
  }

  /**
   * `ReadPacket` on the unread bytes `stream` with counter `s`.  `io.ReadFull` on
   * too few bytes consumes what is left and fails.  A declared length 0 and a
   * sequence mismatch are rejected after the header only, without touching the
   * counter; on a match the counter moves before the payload is read.  A frame of
   * exactly MaxPayloadLen bytes continues with the next frame, and any failure
   * there is reported as ErrBadConn.
   */
  function ReadSpec(stream: seq<Byte>, s: Byte): (o: ReadOutcome)
    ensures o.consumed <= |stream|
    decreases |stream|
  {
    if |stream| < 4 then ReadOutcome(Err(ErrBadConn), |stream|, s)
    else
      var length := Uint24(stream[0], stream[1], stream[2]);
      if length < 1 then ReadOutcome(Err(InvalidPayloadLength(length)), 4, s)
      else if stream[3] != s then ReadOutcome(Err(InvalidSequence(stream[3], s)), 4, s)
      else if |stream| < 4 + length then ReadOutcome(Err(ErrBadConn), |stream|, Advance(s, 1))
      else
        var data := stream[4..4 + length];
        if length < MaxPayloadLen then ReadOutcome(Ok(data), 4 + length, Advance(s, 1))
        else
          var next := ReadSpec(stream[4 + length..], Advance(s, 1));
          if next.result.Err? then ReadOutcome(Err(ErrBadConn), 4 + length + next.consumed, next.counter)
          else ReadOutcome(Ok(data + next.result.value), 4 + length + next.consumed, next.counter)
  }

  /**
   * A successful `ReadPacket` consumed one header per frame and advanced the
   * counter once per frame, and its payload never has a length that is a
   * multiple of MaxPayloadLen.
   */
  lemma {:induction false} ReadSpecSuccess(stream: seq<Byte>, s: Byte)
    ensures var o := ReadSpec(stream, s);
      o.result.Ok? ==>
        && |o.result.value| % MaxPayloadLen != 0
        && o.consumed == |o.result.value| + 4 * FrameCount(|o.result.value|)
        && o.counter == Advance(s, FrameCount(|o.result.value|))
    decreases |stream|
  {
    var o := ReadSpec(stream, s);
    if o.result.Ok? {
      var length := Uint24(stream[0], stream[1], stream[2]);
      assert |stream| >= 4 && 1 <= length && stream[3] == s && 4 + length <= |stream|;
      if length < MaxPayloadLen {
        assert o == ReadOutcome(Ok(stream[4..4 + length]), 4 + length, Advance(s, 1));
        ShortFrameCount(length);
      } else {
        var next := ReadSpec(stream[4 + length..], Advance(s, 1));
        ReadSpecSuccess(stream[4 + length..], Advance(s, 1));
        assert o == ReadOutcome(Ok(stream[4..4 + length] + next.result.value), 4 + length + next.consumed, next.counter);
        FullFrameCount(|next.result.value|, next.consumed, s);
      }
    }
  }


  /** The header checks of `ReadPacket`, and when the counter moves. */
  lemma ReadHeaderChecks(stream: seq<Byte>, s: Byte)
    requires |stream| >= 4
    ensures Uint24(stream[0], stream[1], stream[2]) == 0 ==>
      ReadSpec(stream, s) == ReadOutcome(Err(InvalidPayloadLength(0)), 4, s)
    ensures Uint24(stream[0], stream[1], stream[2]) >= 1 && stream[3] != s ==>
      ReadSpec(stream, s) == ReadOutcome(Err(InvalidSequence(stream[3], s)), 4, s)
    ensures Uint24(stream[0], stream[1], stream[2]) >= 1 && stream[3] == s && ReadSpec(stream, s).result.Err? ==>
      ReadSpec(stream, s).result == Err(ErrBadConn)
    ensures Uint24(stream[0], stream[1], stream[2]) >= 1 && stream[3] == s
            && |stream| < 4 + Uint24(stream[0], stream[1], stream[2]) ==>
      ReadSpec(stream, s) == ReadOutcome(Err(ErrBadConn), |stream|, Advance(s, 1))
  {
  }

  /** A header followed by its payload and more bytes: the fields ReadSpec looks at. */
  lemma HeaderFields(d: seq<Byte>, tail: seq<Byte>, s: Byte)
    requires |d| <= MaxPayloadLen
    ensures var stream := Header(|d|, s) + d + tail;
      && |stream| >= 4 + |d|
      && Uint24(stream[0], stream[1], stream[2]) == |d| && stream[3] == s
      && stream[4..4 + |d|] == d && stream[4 + |d|..] == tail
  {
    Le24RoundTrip(|d|);
  }

  /** ReadSpec on a full frame: its payload, then whatever the rest of the stream gives. */
  lemma ReadSpecFullFrame(d: seq<Byte>, tail: seq<Byte>, s: Byte)
    requires |d| == MaxPayloadLen
    ensures var next := ReadSpec(tail, Advance(s, 1));
      ReadSpec(Header(|d|, s) + d + tail, s)
        == if next.result.Err? then ReadOutcome(Err(ErrBadConn), 4 + |d| + next.consumed, next.counter)
           else ReadOutcome(Ok(d + next.result.value), 4 + |d| + next.consumed, next.counter)
  {
    HeaderFields(d, tail, s);
  }

  /** ReadSpec on a short, non-empty frame: its payload alone. */
  lemma ReadSpecLastFrame(d: seq<Byte>, tail: seq<Byte>, s: Byte)
    requires 1 <= |d| < MaxPayloadLen
    ensures ReadSpec(Header(|d|, s) + d + tail, s) == ReadOutcome(Ok(d), 4 + |d|, Advance(s, 1))
  {
    HeaderFields(d, tail, s);
  }

  /** The frames of a message that needs more than one, seen as its first frame and the rest. */
  lemma FramesFirst(p: seq<Byte>, s: Byte, rest: seq<Byte>)
    requires |p| >= MaxPayloadLen
    ensures Frames(p, s) + rest
            == Header(MaxPayloadLen, s) + p[..MaxPayloadLen] + (Frames(p[MaxPayloadLen..], Advance(s, 1)) + rest)
    ensures |Frames(p, s)| == 4 + MaxPayloadLen + |Frames(p[MaxPayloadLen..], Advance(s, 1))|
    ensures FrameCount(|p|) == FrameCount(|p[MaxPayloadLen..]|) + 1
    ensures Advance(Advance(s, 1), FrameCount(|p[MaxPayloadLen..]|)) == Advance(s, FrameCount(|p|))
    ensures p[..MaxPayloadLen] + p[MaxPayloadLen..] == p
  {
    FramesUnfold(p, s);
    DivStep(|p|);
    AdvanceSucc(s, FrameCount(|p[MaxPayloadLen..]|));
  }

  /** The frames of a message that fits one frame. */
  lemma FramesLast(p: seq<Byte>, s: Byte, rest: seq<Byte>)
    requires |p| < MaxPayloadLen
    ensures Frames(p, s) + rest == Header(|p|, s) + p + rest
    ensures |Frames(p, s)| == 4 + |p| && FrameCount(|p|) == 1
  {
    FramesUnfold(p, s);
  }

  /**
   * Round trip: reading back what `WritePacket` wrote, with the same starting
   * counter, yields the payload, consumes exactly those frames and ends with the
   * counter the writer ended with, whenever the payload length is not a multiple
   * of MaxPayloadLen (so in particular not 0).
   */
  lemma {:induction false} ReadWriteRoundTrip(p: seq<Byte>, s: Byte, rest: seq<Byte>)
    requires |p| % MaxPayloadLen != 0
    ensures ReadSpec(Frames(p, s) + rest, s)
            == ReadOutcome(Ok(p), |Frames(p, s)|, Advance(s, FrameCount(|p|)))
    decreases |p|
  {
    if |p| >= MaxPayloadLen {
      var p1 := p[MaxPayloadLen..];
      FramesFirst(p, s, rest);
      DivStep(|p|);
      ReadWriteRoundTrip(p1, Advance(s, 1), rest);
      ReadSpecFullFrame(p[..MaxPayloadLen], Frames(p1, Advance(s, 1)) + rest, s);
    } else {
      FramesLast(p, s, rest);
      ReadSpecLastFrame(p, rest, s);
    }
  }

  /**
   * The other side of the round trip, as the code is written: a payload whose
   * length is a multiple of MaxPayloadLen (including 0) ends with a zero-length
   * frame, which `ReadPacket` rejects.  An empty message fails with
   * InvalidPayloadLength, a longer one with ErrBadConn from the continuation.
   */
  lemma {:induction false} MultipleOfMaxUnreadable(p: seq<Byte>, s: Byte, rest: seq<Byte>)
    requires |p| % MaxPayloadLen == 0
    ensures |p| == 0 ==> ReadSpec(Frames(p, s) + rest, s).result == Err(InvalidPayloadLength(0))
    ensures |p| > 0 ==> ReadSpec(Frames(p, s) + rest, s).result == Err(ErrBadConn)
    decreases |p|
  {
    if |p| >= MaxPayloadLen {
      var p1 := p[MaxPayloadLen..];
      FramesFirst(p, s, rest);
      DivStep(|p|);
      MultipleOfMaxUnreadable(p1, Advance(s, 1), rest);
      ReadSpecFullFrame(p[..MaxPayloadLen], Frames(p1, Advance(s, 1)) + rest, s);
    } else {
      FramesLast(p, s, rest);
      HeaderFields(p, rest, s);
    }
  }

  /**
   * The reader the wire format calls for: identical to ReadSpec except that a
   * zero-length frame is accepted (it ends a message whose length is a multiple
   * of MaxPayloadLen).
   */
  function ReadAcceptingEmptyFrame(stream: seq<Byte>, s: Byte): (o: ReadOutcome)
    ensures o.consumed <= |stream|
    decreases |stream|
  {
    if |stream| < 4 then ReadOutcome(Err(ErrBadConn), |stream|, s)
    else
      var length := Uint24(stream[0], stream[1], stream[2]);
      if stream[3] != s then ReadOutcome(Err(InvalidSequence(stream[3], s)), 4, s)
      else if |stream| < 4 + length then ReadOutcome(Err(ErrBadConn), |stream|, Advance(s, 1))
      else
        var data := stream[4..4 + length];
        if length < MaxPayloadLen then ReadOutcome(Ok(data), 4 + length, Advance(s, 1))
        else
          var next := ReadAcceptingEmptyFrame(stream[4 + length..], Advance(s, 1));
          if next.result.Err? then ReadOutcome(Err(ErrBadConn), 4 + length + next.consumed, next.counter)
          else ReadOutcome(Ok(data + next.result.value), 4 + length + next.consumed, next.counter)
  }

  /** A success of the corrected reader consumed one header per frame and advanced the counter once per frame. */
  lemma {:induction false} ReadAcceptingSuccess(stream: seq<Byte>, s: Byte)
    ensures var o := ReadAcceptingEmptyFrame(stream, s);
      o.result.Ok? ==>
        && o.consumed == |o.result.value| + 4 * FrameCount(|o.result.value|)
        && o.counter == Advance(s, FrameCount(|o.result.value|))
    decreases |stream|
  {
    var o := ReadAcceptingEmptyFrame(stream, s);
    if o.result.Ok? {
      var length := Uint24(stream[0], stream[1], stream[2]);
      assert |stream| >= 4 && stream[3] == s && 4 + length <= |stream|;
      if length < MaxPayloadLen {
        assert o == ReadOutcome(Ok(stream[4..4 + length]), 4 + length, Advance(s, 1));
        ShortFrameCount(length);
      } else {
        var next := ReadAcceptingEmptyFrame(stream[4 + length..], Advance(s, 1));
        ReadAcceptingSuccess(stream[4 + length..], Advance(s, 1));
        assert o == ReadOutcome(Ok(stream[4..4 + length] + next.result.value), 4 + length + next.consumed, next.counter);
        FullFrameCount(|next.result.value|, next.consumed, s);
      }
    }
  }


  /** ReadAcceptingEmptyFrame on a full frame: its payload, then whatever the rest gives. */
  lemma AcceptingFullFrame(d: seq<Byte>, tail: seq<Byte>, s: Byte)
    requires |d| == MaxPayloadLen
    ensures var next := ReadAcceptingEmptyFrame(tail, Advance(s, 1));
      ReadAcceptingEmptyFrame(Header(|d|, s) + d + tail, s)
        == if next.result.Err? then ReadOutcome(Err(ErrBadConn), 4 + |d| + next.consumed, next.counter)
           else ReadOutcome(Ok(d + next.result.value), 4 + |d| + next.consumed, next.counter)
  {
    HeaderFields(d, tail, s);
  }

  /** ReadAcceptingEmptyFrame on a short frame, empty or not: its payload alone. */
  lemma AcceptingLastFrame(d: seq<Byte>, tail: seq<Byte>, s: Byte)
    requires |d| < MaxPayloadLen
    ensures ReadAcceptingEmptyFrame(Header(|d|, s) + d + tail, s) == ReadOutcome(Ok(d), 4 + |d|, Advance(s, 1))
  {
    HeaderFields(d, tail, s);
  }

  /** With the zero-length frame accepted, every payload written by `WritePacket` reads back. */
  lemma {:induction false} IntendedRoundTrip(p: seq<Byte>, s: Byte, rest: seq<Byte>)
    ensures ReadAcceptingEmptyFrame(Frames(p, s) + rest, s)
            == ReadOutcome(Ok(p), |Frames(p, s)|, Advance(s, FrameCount(|p|)))
    decreases |p|
  {
    if |p| >= MaxPayloadLen {
      var p1 := p[MaxPayloadLen..];
      FramesFirst(p, s, rest);
      IntendedRoundTrip(p1, Advance(s, 1), rest);
      AcceptingFullFrame(p[..MaxPayloadLen], Frames(p1, Advance(s, 1)) + rest, s);
    } else {
      FramesLast(p, s, rest);
      AcceptingLastFrame(p, rest, s);
    }
  }
}

=== FILE: packetio.dfy ===
/**
 * The per-connection packet reader/writer of mysql/packetio.go.  The buffered
 * reader over the network connection becomes the sequence of bytes the peer has
 * sent together with a read cursor; the writer becomes the sequence of bytes
 * written so far together with the number of bytes the transport still accepts
 * before a short write.  Every method is proved against the functions of module
 * Framing.
 */
module MysqlPacketIO {
  import opened Wrappers
  import opened Framing

  function Min(a: nat, b: nat): nat
  {
    if a <= b then a else b
  }

  /** Result of `ReadPacketBySection`: the bytes read and, when read with a header, the descriptor at their tail. */
  datatype PacketSection = PacketSection(buffer: seq<Byte>, nextPkgLen: nat, nextPkgState: Byte)

  /**
   * The section built from `buffer` (of `length` bytes, plus 4 when `withHeader`):
   * the flag byte is `buffer[length + 3]` and the next length is the 24-bit
   * little-endian value of `buffer[length - 1 .. length + 1]`; without a header both
   * stay zero.
   */
  function SectionOf(buffer: seq<Byte>, length: nat, withHeader: bool): (ps: PacketSection)
    requires length >= 1
    requires |buffer| == if withHeader then length + 4 else length
    ensures ps.buffer == buffer
    ensures withHeader ==> ps.nextPkgLen < 0x100_0000 && ps.nextPkgState == buffer[|buffer| - 1]
    ensures !withHeader ==> ps.nextPkgLen == 0 && ps.nextPkgState == 0
  {
    if withHeader then
      PacketSection(buffer, Uint24(buffer[length - 1], buffer[length], buffer[length + 1]), buffer[length + 3])
    else
      PacketSection(buffer, 0, 0)
  }

  /** `data[off], data[off+1], data[off+2], data[off+3] = b0, b1, b2, b3`: a frame header written in place. */
  method PatchHeader(data: array<Byte>, off: nat, b0: Byte, b1: Byte, b2: Byte, b3: Byte)
    requires off + 4 <= data.Length
    modifies data
    ensures data[..] == old(data[..])[..off] + [b0, b1, b2, b3] + old(data[..])[off + 4..]
  {
    data[off] := b0;
    data[off + 1] := b1;
    data[off + 2] := b2;
    data[off + 3] := b3;
    assert data[..] == old(data[..])[..off] + [b0, b1, b2, b3] + old(data[..])[off + 4..];
  }

  /** Appending the next `k` bytes of `sent` to its first `w` bytes gives its first `w + k` bytes. */
  lemma PrefixExtend(sent: seq<Byte>, w: nat, frame: seq<Byte>, k: nat)
    requires w + |frame| <= |sent| && sent[w..w + |frame|] == frame && k <= |frame|
    ensures sent[..w] + frame[..k] == sent[..w + k]
  {
    assert frame[..k] == sent[w..w + k];
  }

  /** Slicing `a + b + c` at or past the end of `b`. */
  lemma ConcatSlices(a: seq<Byte>, b: seq<Byte>, c: seq<Byte>, k: nat)
    requires |b| <= k <= |b| + |c|
    ensures (a + b + c)[..|a| + k] == a + b + c[..k - |b|]
    ensures (a + b + c)[|a| + k..] == c[k - |b|..]
    ensures (a + b + c)[|a|..|a| + k] == b + c[..k - |b|]
  {
    assert (a + b + c)[..|a| + k] == a + (b + c)[..k];
    assert (b + c)[..k] == b + c[..k - |b|];
    assert (a + b + c)[|a|..|a| + k] == (b + c)[..k];
  }

  /** Cutting `a + b + c` at `|a| + k` and appending `t` regroups around `b`. */
  lemma Regroup(a: seq<Byte>, b: seq<Byte>, c: seq<Byte>, k: nat, t: seq<Byte>)
    requires |b| <= k <= |b| + |c|
    ensures (a + b + c)[..|a| + k] + t == a + (b + c[..k - |b|] + t)
  {
    ConcatSlices(a, b, c, k);
  }

  /** The first frame's header in a patched buffer whose prefix up to `off` is settled. */
  lemma PatchedHeaderAt(D0: seq<Byte>, whole: seq<Byte>, pre: seq<Byte>, S: Byte)
    requires |D0| >= |pre| + 4 + MaxPayloadLen
    requires whole == pre + PatchedBuffer(D0[|pre|..], S)
    ensures whole[..|pre| + 4] == pre + Header(MaxPayloadLen, S)
  {
    var P := PatchedBuffer(D0[|pre|..], S);
    PatchedBufferStartsWithHeader(D0[|pre|..], S);
    assert P[..4] == Header(MaxPayloadLen, S);
    assert (pre + P)[..|pre| + 4] == pre + P[..4];
  }

  /** The patched buffer past a full frame at `off`, against the buffer with that frame's header written. */
  lemma PatchedTailAt(D0: seq<Byte>, whole: seq<Byte>, pre: seq<Byte>, S: Byte)
    requires |D0| >= |pre| + 4 + MaxPayloadLen
    requires whole == pre + PatchedBuffer(D0[|pre|..], S)
    ensures var after := pre + Header(MaxPayloadLen, S) + D0[|pre| + 4..];
      whole == after[..|pre| + MaxPayloadLen] + PatchedBuffer(D0[|pre| + MaxPayloadLen..], Advance(S, 1))
  {
    var off := |pre|;
    var H, rest := Header(MaxPayloadLen, S), D0[off + 4..];
    var X := D0[off..];
    var tail := PatchedBuffer(D0[off + MaxPayloadLen..], Advance(S, 1));
    assert PatchedBuffer(X, S) == H + rest[..MaxPayloadLen - 4] + tail by {
      assert X[MaxPayloadLen..] == D0[off + MaxPayloadLen..];
      assert X[4..MaxPayloadLen] == rest[..MaxPayloadLen - 4];
    }
    Regroup(pre, H, rest, MaxPayloadLen, tail);
  }

  /** The buffer after one full-frame header is patched in, against PatchedBuffer. */
  lemma PatchedStep(D0: seq<Byte>, s0: Byte, before: seq<Byte>, off: nat, S: Byte)
    requires |D0| >= 4 && |before| == |D0| && off + 4 + MaxPayloadLen <= |D0|
    requires before[off..] == D0[off..]
    requires PatchedBuffer(D0, s0) == before[..off] + PatchedBuffer(D0[off..], S)
    ensures var after := before[..off] + Header(MaxPayloadLen, S) + D0[off + 4..];
      && after[off + MaxPayloadLen..] == D0[off + MaxPayloadLen..]
      && PatchedBuffer(D0, s0) == after[..off + MaxPayloadLen] + PatchedBuffer(D0[off + MaxPayloadLen..], Advance(S, 1))
      && after == PatchedBuffer(D0, s0)[..off + 4] + D0[off + 4..]
      && after[off..off + 4 + MaxPayloadLen] == Header(MaxPayloadLen, S) + D0[off + 4..off + 4 + MaxPayloadLen]
  {
    var pre, H, rest := before[..off], Header(MaxPayloadLen, S), D0[off + 4..];
    var after, P := pre + H + rest, PatchedBuffer(D0, s0);
    assert after[off + MaxPayloadLen..] == D0[off + MaxPayloadLen..] by {
      ConcatSlices(pre, H, rest, MaxPayloadLen);
      assert rest[MaxPayloadLen - 4..] == D0[off + MaxPayloadLen..];
    }
    assert P == after[..off + MaxPayloadLen] + PatchedBuffer(D0[off + MaxPayloadLen..], Advance(S, 1)) by {
      PatchedTailAt(D0, P, pre, S);
    }
    assert after == P[..off + 4] + D0[off + 4..] by {
      PatchedHeaderAt(D0, P, pre, S);
    }
    assert after[off..off + 4 + MaxPayloadLen] == H + D0[off + 4..off + 4 + MaxPayloadLen] by {
      ConcatSlices(pre, H, rest, MaxPayloadLen + 4);
      assert rest[..MaxPayloadLen] == D0[off + 4..off + 4 + MaxPayloadLen];
    }
  }

  /** The frames of the payload from `off` on: a full frame, then the frames after it. */
  lemma FramesAt(D0: seq<Byte>, off: nat, S: Byte, budget: nat)
    requires off + 4 + MaxPayloadLen <= |D0|
    ensures Frames(D0[off + 4..], S)
            == Header(MaxPayloadLen, S) + D0[off + 4..off + 4 + MaxPayloadLen] + Frames(D0[off + MaxPayloadLen + 4..], Advance(S, 1))
    ensures MaxPayloadLen + 4 <= budget ==>
      CompleteFrames(D0[off + 4..], budget) == 1 + CompleteFrames(D0[off + MaxPayloadLen + 4..], budget - (MaxPayloadLen + 4))
    ensures budget < MaxPayloadLen + 4 ==> CompleteFrames(D0[off + 4..], budget) == 0
  {
    FullFrameStep(D0[off..], S, budget);
    assert D0[off..][4..] == D0[off + 4..];
    assert D0[off..][MaxPayloadLen + 4..] == D0[off + MaxPayloadLen + 4..];
    assert D0[off..][4..MaxPayloadLen + 4] == D0[off + 4..off + 4 + MaxPayloadLen];
  }

  /** Where the next frame sits among the bytes to send once the first `w` are written. */
  lemma SplitAt(sent: seq<Byte>, w: nat, frame: seq<Byte>, next: seq<Byte>, k: nat)
    requires w <= |sent| && sent[w..] == frame + next && k <= |frame|
    ensures |sent| == w + |frame| + |next|
    ensures sent[..w] + frame[..k] == sent[..w + k]
    ensures sent[w + |frame|..] == next
  {
    assert sent[w..][..k] == frame[..k];
    assert sent[w..][|frame|..] == next;
  }

  /**
   * The caller's buffer `buf` during a `WritePacket` of D0 that started with
   * counter s0, once the frames before offset `off` are handled and the counter
   * is `seqNo`: the headers before `off` are patched in and the bytes from `off`
   * on are untouched.
   */
  ghost predicate PatchProgress(buf: seq<Byte>, D0: seq<Byte>, s0: Byte, off: nat, seqNo: Byte)
  {
    && |D0| == |buf| && off + 4 <= |D0|
    && buf[off..] == D0[off..]
    && PatchedBuffer(D0, s0) == buf[..off] + PatchedBuffer(D0[off..], seqNo)
  }

  /**
   * The transport during the same `WritePacket`, which started with output out0
   * and budget B0: the bytes of the frames before `off` are written, and the
   * counter has moved once per frame.
   */
  ghost predicate SendProgress(D0: seq<Byte>, s0: Byte, out0: seq<Byte>, B0: nat, off: nat, seqNo: Byte, out: seq<Byte>, budget: nat)
  {
    && off + 4 <= |D0|
    && var sent := Frames(D0[4..], s0);
    && budget <= B0 && B0 - budget <= |sent|
    && out == out0 + sent[..B0 - budget]
    && sent[B0 - budget..] == Frames(D0[off + 4..], seqNo)
    && Advance(s0, CompleteFrames(D0[4..], B0)) == Advance(seqNo, CompleteFrames(D0[off + 4..], budget))
  }

  /**
   * The frames before `off` of the same `WritePacket` are the complete ones so
   * far: each is MaxPayloadLen bytes of the caller's buffer, so the frames
   * completed overall reach `off` plus those still to complete from `off` on.
   */
  ghost predicate CountProgress(D0: seq<Byte>, B0: nat, off: nat, budget: nat)
  {
    && off + 4 <= |D0|
    && MaxPayloadLen * CompleteFrames(D0[4..], B0) == off + MaxPayloadLen * CompleteFrames(D0[off + 4..], budget)
  }

  /**
   * The offset of the header of the frame a short write fails on, plus 4: the
   * headers are written into the buffer up to there and no further.
   */
  ghost function ShortWriteEnd(D0: seq<Byte>, B0: nat): nat
    requires |D0| >= 4
  {
    MaxPayloadLen * CompleteFrames(D0[4..], B0) + 4
  }

  /**
   * The buffer as `WritePacket` with budget B0 leaves it: fully patched on
   * success; after a short write, patched up to and including the header of the
   * frame that failed, and untouched past it.
   */
  ghost predicate PatchOutcome(buf: seq<Byte>, D0: seq<Byte>, s0: Byte, B0: nat, err: Option<PacketError>)
    requires |D0| >= 4
  {
    && (err.None? ==> buf == PatchedBuffer(D0, s0))
    && (err.Some? ==>
          var m := ShortWriteEnd(D0, B0);
          m <= |D0| && buf == PatchedBuffer(D0, s0)[..m] + D0[m..])
  }

  /** The transport as `WritePacket` leaves it. */
  ghost predicate SendOutcome(D0: seq<Byte>, s0: Byte, out0: seq<Byte>, B0: nat, err: Option<PacketError>, seqNo: Byte, out: seq<Byte>, budget: nat)
    requires |D0| >= 4
  {
    && var sent := Frames(D0[4..], s0);
    && (err.None? <==> |sent| <= B0)
    && (err.Some? ==> err.value == ErrBadConn)
    && out == out0 + sent[..Min(|sent|, B0)]
    && budget == B0 - Min(|sent|, B0)
    && seqNo == Advance(s0, CompleteFrames(D0[4..], B0))
  }

  /** Buffer and transport as `WritePacket` leaves them. */
  ghost predicate WriteOutcome(buf: seq<Byte>, D0: seq<Byte>, s0: Byte, out0: seq<Byte>, B0: nat, err: Option<PacketError>, seqNo: Byte, out: seq<Byte>, budget: nat)
    requires |D0| >= 4
  {
    PatchOutcome(buf, D0, s0, B0, err) && SendOutcome(D0, s0, out0, B0, err, seqNo, out, budget)
  }

  /** Patching the header of a full frame at `off` moves PatchProgress one frame on. */
  lemma PatchFullFrame(buf: seq<Byte>, D0: seq<Byte>, s0: Byte, off: nat, S: Byte)
    requires off + 4 + MaxPayloadLen <= |D0|
    requires PatchProgress(buf, D0, s0, off, S)
    ensures var after := buf[..off] + Header(MaxPayloadLen, S) + D0[off + 4..];
      && PatchProgress(after, D0, s0, off + MaxPayloadLen, Advance(S, 1))
      && after == PatchedBuffer(D0, s0)[..off + 4] + D0[off + 4..]
  {
    PatchedStep(D0, s0, buf, off, S);
  }

  /** Patching the header of the last frame completes PatchedBuffer. */
  lemma PatchLastFrame(buf: seq<Byte>, D0: seq<Byte>, s0: Byte, off: nat, S: Byte)
    requires off + 4 <= |D0| < off + 4 + MaxPayloadLen
    requires PatchProgress(buf, D0, s0, off, S)
    ensures var after := buf[..off] + Header(|D0| - (off + 4), S) + D0[off + 4..];
      && after == PatchedBuffer(D0, s0)
      && after == PatchedBuffer(D0, s0)[..off + 4] + D0[off + 4..]
  {
    var after := buf[..off] + Header(|D0| - (off + 4), S) + D0[off + 4..];
    LastFrameStep(D0[off..], S, 0);
    assert D0[off..][4..] == D0[off + 4..];
    assert after == PatchedBuffer(D0, s0);
    assert after[off + 4..] == D0[off + 4..];
  }

  /** A full frame at `off` moves CountProgress one frame on when it fits, and is the failing frame otherwise. */
  lemma CountFullFrame(D0: seq<Byte>, B0: nat, off: nat, B: nat)
    requires off + 4 + MaxPayloadLen <= |D0|
    requires CountProgress(D0, B0, off, B)
    ensures MaxPayloadLen + 4 <= B ==> CountProgress(D0, B0, off + MaxPayloadLen, B - (MaxPayloadLen + 4))
    ensures B < MaxPayloadLen + 4 ==> ShortWriteEnd(D0, B0) == off + 4
  {
    FramesAt(D0, off, 0, B);
  }

  /** The last frame at `off`, when it does not fit, is the failing frame. */
  lemma CountLastFrame(D0: seq<Byte>, B0: nat, off: nat, B: nat)
    requires off + 4 <= |D0| < off + 4 + MaxPayloadLen && B < |D0| - off
    requires CountProgress(D0, B0, off, B)
    ensures ShortWriteEnd(D0, B0) == off + 4
  {
    LastFrameStep(D0[off..], 0, B);
    assert D0[off..][4..] == D0[off + 4..];
  }

  /** A short write on the frame at `off`, once its header is patched in, leaves PatchOutcome. */
  lemma ShortPatchOutcome(buf: seq<Byte>, D0: seq<Byte>, s0: Byte, B0: nat, off: nat)
    requires off + 4 <= |D0| && ShortWriteEnd(D0, B0) == off + 4
    requires buf == PatchedBuffer(D0, s0)[..off + 4] + D0[off + 4..]
    ensures PatchOutcome(buf, D0, s0, B0, Some(ErrBadConn))
  {
  }

  /** A full frame at `off` that fits: SendProgress moves one frame on. */
  lemma SendFullFrameFits(D0: seq<Byte>, s0: Byte, out0: seq<Byte>, B0: nat, off: nat, S: Byte, out: seq<Byte>, B: nat)
    requires off + 4 + MaxPayloadLen <= |D0| && MaxPayloadLen + 4 <= B
    requires SendProgress(D0, s0, out0, B0, off, S, out, B)
    ensures var frame := Header(MaxPayloadLen, S) + D0[off + 4..off + 4 + MaxPayloadLen];
      SendProgress(D0, s0, out0, B0, off + MaxPayloadLen, Advance(S, 1), out + frame, B - |frame|)
  {
    var sent := Frames(D0[4..], s0);
    var W := B0 - B;
    var frame := Header(MaxPayloadLen, S) + D0[off + 4..off + 4 + MaxPayloadLen];
    var next := Frames(D0[off + MaxPayloadLen + 4..], Advance(S, 1));
    FramesAt(D0, off, S, B);
    SplitAt(sent, W, frame, next, |frame|);
    AdvanceSucc(S, CompleteFrames(D0[off + MaxPayloadLen + 4..], B - |frame|));
  }

  /** A full frame at `off` that does not fit: the write ends with ErrBadConn. */
  lemma SendFullFrameShort(D0: seq<Byte>, s0: Byte, out0: seq<Byte>, B0: nat, off: nat, S: Byte, out: seq<Byte>, B: nat)
    requires off + 4 + MaxPayloadLen <= |D0| && B < MaxPayloadLen + 4
    requires SendProgress(D0, s0, out0, B0, off, S, out, B)
    ensures var frame := Header(MaxPayloadLen, S) + D0[off + 4..off + 4 + MaxPayloadLen];
      SendOutcome(D0, s0, out0, B0, Some(ErrBadConn), S, out + frame[..B], 0)
  {
    var sent := Frames(D0[4..], s0);
    var W := B0 - B;
    var frame := Header(MaxPayloadLen, S) + D0[off + 4..off + 4 + MaxPayloadLen];
    var next := Frames(D0[off + MaxPayloadLen + 4..], Advance(S, 1));
    FramesAt(D0, off, S, B);
    SplitAt(sent, W, frame, next, B);
    AdvanceZero(S);
  }

  /** Sending a full frame at `off`: SendProgress moves one frame on when it fits, the write ends otherwise. */
  lemma SendFullFrameStep(D0: seq<Byte>, s0: Byte, out0: seq<Byte>, B0: nat, off: nat, S: Byte, out: seq<Byte>, B: nat)
    requires off + 4 + MaxPayloadLen <= |D0|
    requires SendProgress(D0, s0, out0, B0, off, S, out, B)
    ensures var frame := Header(MaxPayloadLen, S) + D0[off + 4..off + 4 + MaxPayloadLen];
      && |frame| == MaxPayloadLen + 4
      && (|frame| <= B ==> SendProgress(D0, s0, out0, B0, off + MaxPayloadLen, Advance(S, 1), out + frame, B - |frame|))
      && (B < |frame| ==> SendOutcome(D0, s0, out0, B0, Some(ErrBadConn), S, out + frame[..B], 0))
  {
    if MaxPayloadLen + 4 <= B {
      SendFullFrameFits(D0, s0, out0, B0, off, S, out, B);
    } else {
      SendFullFrameShort(D0, s0, out0, B0, off, S, out, B);
    }
  }

  /** The last frame at `off` is the whole rest of the message's frames, and is complete exactly when it fits. */
  lemma LastFrameRest(D0: seq<Byte>, s0: Byte, out0: seq<Byte>, B0: nat, off: nat, S: Byte, out: seq<Byte>, B: nat)
    requires off + 4 <= |D0| < off + 4 + MaxPayloadLen
    requires SendProgress(D0, s0, out0, B0, off, S, out, B)
    ensures var sent := Frames(D0[4..], s0);
      var frame := Header(|D0| - (off + 4), S) + D0[off + 4..];
      && |frame| == |D0| - off
      && |sent| == B0 - B + |frame| && sent[B0 - B..B0 - B + |frame|] == frame
      && CompleteFrames(D0[off + 4..], B) == if |frame| <= B then 1 else 0
  {
    LastFrameStep(D0[off..], S, B);
    assert D0[off..][4..] == D0[off + 4..];
  }

  /** The last frame at `off`, when it fits: the write completes. */
  lemma SendLastFrameFits(D0: seq<Byte>, s0: Byte, out0: seq<Byte>, B0: nat, off: nat, S: Byte, out: seq<Byte>, B: nat)
    requires off + 4 <= |D0| < off + 4 + MaxPayloadLen && |D0| - off <= B
    requires SendProgress(D0, s0, out0, B0, off, S, out, B)
    ensures var frame := Header(|D0| - (off + 4), S) + D0[off + 4..];
      SendOutcome(D0, s0, out0, B0, None, Advance(S, 1), out + frame, B - |frame|)
  {
    var frame := Header(|D0| - (off + 4), S) + D0[off + 4..];
    LastFrameRest(D0, s0, out0, B0, off, S, out, B);
    PrefixExtend(Frames(D0[4..], s0), B0 - B, frame, |frame|);
  }

  /** The last frame at `off`, when it does not fit: the write ends with ErrBadConn. */
  lemma SendLastFrameShort(D0: seq<Byte>, s0: Byte, out0: seq<Byte>, B0: nat, off: nat, S: Byte, out: seq<Byte>, B: nat)
    requires off + 4 <= |D0| < off + 4 + MaxPayloadLen && B < |D0| - off
    requires SendProgress(D0, s0, out0, B0, off, S, out, B)
    ensures var frame := Header(|D0| - (off + 4), S) + D0[off + 4..];
      SendOutcome(D0, s0, out0, B0, Some(ErrBadConn), S, out + frame[..B], 0)
  {
    var frame := Header(|D0| - (off + 4), S) + D0[off + 4..];
    var sent := Frames(D0[4..], s0);
    LastFrameRest(D0, s0, out0, B0, off, S, out, B);
    assert out + frame[..B] == out0 + sent[..B0] by {
      PrefixExtend(sent, B0 - B, frame, B);
    }
    assert Advance(s0, CompleteFrames(D0[4..], B0)) == S by {
      AdvanceZero(S);
    }
  }

  /** Sending the last frame at `off` ends the write, complete or cut short. */
  lemma SendLastFrameStep(D0: seq<Byte>, s0: Byte, out0: seq<Byte>, B0: nat, off: nat, S: Byte, out: seq<Byte>, B: nat)
    requires off + 4 <= |D0| < off + 4 + MaxPayloadLen
    requires SendProgress(D0, s0, out0, B0, off, S, out, B)
    ensures var frame := Header(|D0| - (off + 4), S) + D0[off + 4..];
      && |frame| == |D0| - off
      && (|frame| <= B ==> SendOutcome(D0, s0, out0, B0, None, Advance(S, 1), out + frame, B - |frame|))
      && (B < |frame| ==> SendOutcome(D0, s0, out0, B0, Some(ErrBadConn), S, out + frame[..B], 0))
  {
    if |D0| - off <= B {
      SendLastFrameFits(D0, s0, out0, B0, off, S, out, B);
    } else {
      SendLastFrameShort(D0, s0, out0, B0, off, S, out, B);
    }
  }

  /** The whole effect of writing the last frame at `off`, whether or not it fits. */
  lemma LastFrameDone(before: seq<Byte>, D0: seq<Byte>, s0: Byte, out0: seq<Byte>, B0: nat, off: nat, S: Byte, out: seq<Byte>, B: nat,
                      ok: bool, err: Option<PacketError>, after: seq<Byte>, out': seq<Byte>, B': nat, S': Byte)
    requires off + 4 <= |D0| < off + 4 + MaxPayloadLen
    requires PatchProgress(before, D0, s0, off, S)
    requires SendProgress(D0, s0, out0, B0, off, S, out, B)
    requires CountProgress(D0, B0, off, B)
    requires var frame := Header(|D0| - (off + 4), S) + D0[off + 4..];
      && after == before[..off] + frame
      && ok == (|frame| <= B) && out' == out + frame[..Min(|frame|, B)] && B' == B - Min(|frame|, B)
      && S' == (if ok then Advance(S, 1) else S)
      && err == if ok then None else Some(ErrBadConn)
    ensures WriteOutcome(after, D0, s0, out0, B0, err, S', out', B')
  {
    var frame := Header(|D0| - (off + 4), S) + D0[off + 4..];
    assert after == before[..off] + Header(|D0| - (off + 4), S) + D0[off + 4..];
    PatchLastFrame(before, D0, s0, off, S);
    if ok {
      SendLastFrameFits(D0, s0, out0, B0, off, S, out, B);
    } else {
      SendLastFrameShort(D0, s0, out0, B0, off, S, out, B);
      CountLastFrame(D0, B0, off, B);
      ShortPatchOutcome(after, D0, s0, B0, off);
    }
  }

  /**
   * `WritePacketBatch` of D0 onto `total` with counter s0, once the frames before
   * `off` are appended to `acc` and the counter is `seqNo`: what is still to come
   * completes `total + Frames(payload, s0)`, and the counter still has to move
   * once per remaining frame.
   */
  ghost predicate BatchProgress(total: seq<Byte>, D0: seq<Byte>, s0: Byte, off: nat, acc: seq<Byte>, seqNo: Byte)
  {
    && off + 4 <= |D0|
    && acc + Frames(D0[off + 4..], seqNo) == total + Frames(D0[4..], s0)
    && Advance(seqNo, FrameCount(|D0| - (off + 4))) == Advance(s0, FrameCount(|D0| - 4))
  }

  /** Appending a full frame at `off` moves BatchProgress one frame on. */
  lemma BatchFullFrameStep(total: seq<Byte>, D0: seq<Byte>, s0: Byte, off: nat, acc: seq<Byte>, S: Byte)
    requires off + 4 + MaxPayloadLen <= |D0|
    requires BatchProgress(total, D0, s0, off, acc, S)
    ensures BatchProgress(total, D0, s0, off + MaxPayloadLen, acc + (Header(MaxPayloadLen, S) + D0[off + 4..off + 4 + MaxPayloadLen]), Advance(S, 1))
  {
    FramesAt(D0, off, S, 0);
    DivStep(|D0| - (off + 4));
    AdvanceSucc(S, FrameCount(|D0| - (off + MaxPayloadLen + 4)));
  }

  /** Appending the last frame at `off` completes `total + Frames(payload, s0)`. */
  lemma BatchLastFrameStep(total: seq<Byte>, D0: seq<Byte>, s0: Byte, off: nat, acc: seq<Byte>, S: Byte)
    requires off + 4 <= |D0| < off + 4 + MaxPayloadLen
    requires BatchProgress(total, D0, s0, off, acc, S)
    ensures acc + (Header(|D0| - (off + 4), S) + D0[off + 4..]) == total + Frames(D0[4..], s0)
    ensures Advance(S, 1) == Advance(s0, FrameCount(|D0| - 4))
  {
    LastFrameStep(D0[off..], S, 0);
    assert D0[off..][4..] == D0[off + 4..];
  }

  class PacketIO {
    /** Every byte the peer sends on this connection. */
    var input: seq<Byte>
    /** How many of them have been consumed. */
    var pos: nat
    /** Every byte written to the connection so far. */
    var output: seq<Byte>
    /** How many more bytes the connection accepts; a longer write is a short write. */
    var budget: nat
    /** The protocol sequence counter, a uint8. */
    var Sequence: Byte

    ghost predicate Valid()
      reads this
    {
      pos <= |input|
    }

    /** `NewPacketIO`: a connection with nothing read or written and the counter at 0. */
    constructor (input: seq<Byte>, budget: nat)
      ensures Valid()
      ensures this.input == input && pos == 0
      ensures output == [] && this.budget == budget
      ensures Sequence == 0
    {
      this.input := input;
      pos := 0;
      output := [];
      this.budget := budget;
      Sequence := 0;
    }

    /** `io.ReadFull` of `n` bytes: on too few bytes it consumes the rest and fails. */
    method ReadFull(n: nat) returns (bytes: Option<seq<Byte>>)
      requires Valid()
      modifies this`pos
      ensures Valid()
      ensures old(pos) + n <= |input| ==> bytes == Some(input[old(pos)..old(pos) + n]) && pos == old(pos) + n
      ensures |input| < old(pos) + n ==> bytes == None && pos == |input|
    {
      if pos + n <= |input| {
        bytes := Some(input[pos..pos + n]);
        pos := pos + n;
      } else {
        bytes := None;
        pos := |input|;
      }
    }

    /** A write of `bytes` whose count is checked: it succeeds only if all of them are accepted. */
    method Write(bytes: seq<Byte>) returns (ok: bool)
      modifies this`output, this`budget
      ensures ok == (|bytes| <= old(budget))
      ensures output == old(output) + bytes[..Min(|bytes|, old(budget))]
      ensures budget == old(budget) - Min(|bytes|, old(budget))
    {
      var n := Min(|bytes|, budget);
      output := output + bytes[..n];
      budget := budget - n;
      ok := n == |bytes|;
    }

    /** `WritePacketDirect`: writes already framed bytes verbatim; the counter does not move. */
    method WritePacketDirect(data: seq<Byte>) returns (err: Option<PacketError>)
      modifies this`output, this`budget
      ensures Sequence == old(Sequence)
      ensures data == [] ==> err == Some(EmptyPacket) && output == old(output) && budget == old(budget)
      ensures data != [] ==>
        && (err == if |data| <= old(budget) then None else Some(ErrBadConn))
        && output == old(output) + data[..Min(|data|, old(budget))]
        && budget == old(budget) - Min(|data|, old(budget))
    {
      if |data| == 0 {
        return Some(EmptyPacket);
      }
      var ok := Write(data);
      if !ok {
        return Some(ErrBadConn);
      }
      return None;
    }

    /**
     * `ReadPacketBySection`: reads `length` bytes (`length + 4` with a header) and,
     * with a header, decodes the descriptor at their tail.  Length 0 reads nothing
     * and returns no section and no error.  The counter does not move.
     */
    method ReadPacketBySection(length: nat, withHeader: bool) returns (r: Result<Option<PacketSection>, PacketError>)
      requires Valid()
      requires length < 0x1_0000_0000
      requires withHeader ==> length + 4 < 0x1_0000_0000
      modifies this`pos
      ensures Valid() && Sequence == old(Sequence)
      ensures length == 0 ==> r == Ok(None) && pos == old(pos)
      ensures length > 0 ==>
        var n := if withHeader then length + 4 else length;
        if old(pos) + n <= |input|
        then r == Ok(Some(SectionOf(input[old(pos)..old(pos) + n], length, withHeader))) && pos == old(pos) + n
        else r == Err(ErrBadConn) && pos == |input|
    {
      if length == 0 {
        return Ok(None);
      }
      var size := if withHeader then length + 4 else length;
      var buffer := ReadFull(size);
      if buffer.None? {
        return Err(ErrBadConn);
      }
      var b := buffer.value;
      var ps := PacketSection(b, 0, 0);
      if withHeader {
        ps := ps.(nextPkgState := b[length + 3]);
        ps := ps.(nextPkgLen := Uint24(b[length - 1], b[length], b[length + 1]));
      }
      return Ok(Some(ps));
    }

    /**
     * `ReadPacket`: reads one logical message, following frames of exactly
     * MaxPayloadLen bytes into the next frame.  Its whole effect (result, bytes
     * consumed, counter) is the one ReadSpec gives for the unread bytes.
     */
    method ReadPacket() returns (r: Result<seq<Byte>, PacketError>)
      requires Valid()
      modifies this`pos, this`Sequence
      ensures Valid()
      ensures r == ReadSpec(old(input[pos..]), old(Sequence)).result
      ensures pos == old(pos) + ReadSpec(old(input[pos..]), old(Sequence)).consumed
      ensures Sequence == ReadSpec(old(input[pos..]), old(Sequence)).counter
      decreases |input| - pos
    {
      ghost var stream := input[pos..];
      var header := ReadFull(4);
      if header.None? {
        return Err(ErrBadConn);
      }
      var h := header.value;
      assert h == stream[..4];
      var length := Uint24(h[0], h[1], h[2]);
      if length < 1 {
        return Err(InvalidPayloadLength(length));
      }
      var sequence := h[3];
      if sequence != Sequence {
        return Err(InvalidSequence(sequence, Sequence));
      }
      Sequence := Advance(Sequence, 1);
      var data := ReadFull(length);
      if data.None? {
        return Err(ErrBadConn);
      }
      assert data.value == stream[4..4 + length];
      if length < MaxPayloadLen {
        return Ok(data.value);
      }
      assert input[pos..] == stream[4 + length..];
      var buf := ReadPacket();
      if buf.Err? {
        return Err(ErrBadConn);
      }
      return Ok(data.value + buf.value);
    }

    /**
     * The reader the wire format calls for: `ReadPacket` without the rejection of
     * a zero-length frame, proved against ReadAcceptingEmptyFrame.
     */
    method ReadPacketAcceptingEmptyFrame() returns (r: Result<seq<Byte>, PacketError>)
      requires Valid()
      modifies this`pos, this`Sequence
      ensures Valid()
      ensures r == ReadAcceptingEmptyFrame(old(input[pos..]), old(Sequence)).result
      ensures pos == old(pos) + ReadAcceptingEmptyFrame(old(input[pos..]), old(Sequence)).consumed
      ensures Sequence == ReadAcceptingEmptyFrame(old(input[pos..]), old(Sequence)).counter
      decreases |input| - pos
    {
      ghost var stream := input[pos..];
      var header := ReadFull(4);
      if header.None? {
        return Err(ErrBadConn);
      }
      var h := header.value;
      assert h == stream[..4];
      var length := Uint24(h[0], h[1], h[2]);
      var sequence := h[3];
      if sequence != Sequence {
        return Err(InvalidSequence(sequence, Sequence));
      }
      Sequence := Advance(Sequence, 1);
      var data := ReadFull(length);
      if data.None? {
        return Err(ErrBadConn);
      }
      assert data.value == stream[4..4 + length];
      if length < MaxPayloadLen {
        return Ok(data.value);
      }
      assert input[pos..] == stream[4 + length..];
      var buf := ReadPacketAcceptingEmptyFrame();
      if buf.Err? {
        return Err(ErrBadConn);
      }
      return Ok(data.value + buf.value);
    }

    /**
     * One frame of `WritePacket`: the 4-byte `header` (three length bytes, then
     * the counter) is written into `data` at `off`, then the `4 + n` bytes from
     * `off` are written out; the counter moves only when the write was complete.
     */
    method SendFrame(data: array<Byte>, off: nat, header: seq<Byte>, n: nat, ghost frame: seq<Byte>) returns (ok: bool)
      requires off + 4 + n <= data.Length
      requires |header| == 4 && header[3] == Sequence
      requires frame == header + data[off + 4..off + 4 + n]
      modifies this`output, this`budget, this`Sequence, data
      ensures data[..] == old(data[..])[..off] + header + old(data[..])[off + 4..]
      ensures && ok == (|frame| <= old(budget))
        && output == old(output) + frame[..Min(|frame|, old(budget))]
        && budget == old(budget) - Min(|frame|, old(budget))
      ensures Sequence == if ok then Advance(old(Sequence), 1) else old(Sequence)
    {
      PatchHeader(data, off, header[0], header[1], header[2], header[3]);
      assert [header[0], header[1], header[2], header[3]] == header;
      assert data[off..off + 4 + n] == frame;
      ok := Write(data[off..off + 4 + n]);
      if ok {
        Sequence := Advance(Sequence, 1);
      }
    }

    /** One turn of `WritePacket`'s loop: a full frame at `off`. */
    method SendFullFrame(data: array<Byte>, ghost D0: seq<Byte>, ghost s0: Byte, ghost out0: seq<Byte>, ghost B0: nat, off: nat)
      returns (ok: bool)
      requires off + 4 + MaxPayloadLen <= data.Length
      requires PatchProgress(data[..], D0, s0, off, Sequence)
      requires SendProgress(D0, s0, out0, B0, off, Sequence, output, budget)
      requires CountProgress(D0, B0, off, budget)
      modifies this`output, this`budget, this`Sequence, data
      ensures ok ==> PatchProgress(data[..], D0, s0, off + MaxPayloadLen, Sequence)
      ensures ok ==> SendProgress(D0, s0, out0, B0, off + MaxPayloadLen, Sequence, output, budget)
      ensures ok ==> CountProgress(D0, B0, off + MaxPayloadLen, budget)
      ensures !ok ==> WriteOutcome(data[..], D0, s0, out0, B0, Some(ErrBadConn), Sequence, output, budget)
    {
      ghost var before, S, out, B := data[..], Sequence, output, budget;
      ghost var frame := Header(MaxPayloadLen, S) + D0[off + 4..off + 4 + MaxPayloadLen];
      assert [0xff, 0xff, 0xff, S] == Header(MaxPayloadLen, S) by {
        FullLengthBytes();
      }
      assert before[off + 4..] == D0[off + 4..] by {
        assert before[off..][4..] == before[off + 4..];
      }
      assert [0xff, 0xff, 0xff, S] + before[off + 4..off + 4 + MaxPayloadLen] == frame;
      ok := SendFrame(data, off, [0xff, 0xff, 0xff, Sequence], MaxPayloadLen, frame);
      assert data[..] == before[..off] + Header(MaxPayloadLen, S) + D0[off + 4..];
      PatchFullFrame(before, D0, s0, off, S);
      CountFullFrame(D0, B0, off, B);
      if ok {
        SendFullFrameFits(D0, s0, out0, B0, off, S, out, B);
      } else {
        SendFullFrameShort(D0, s0, out0, B0, off, S, out, B);
        ShortPatchOutcome(data[..], D0, s0, B0, off);
      }
    }

    /** The end of `WritePacket`: the last frame, of fewer than MaxPayloadLen bytes, at `off`. */
    method SendLastFrame(data: array<Byte>, ghost D0: seq<Byte>, ghost s0: Byte, ghost out0: seq<Byte>, ghost B0: nat, off: nat)
      returns (err: Option<PacketError>)
      requires off + 4 <= data.Length < off + 4 + MaxPayloadLen
      requires PatchProgress(data[..], D0, s0, off, Sequence)
      requires SendProgress(D0, s0, out0, B0, off, Sequence, output, budget)
      requires CountProgress(D0, B0, off, budget)
      modifies this`output, this`budget, this`Sequence, data
      ensures WriteOutcome(data[..], D0, s0, out0, B0, err, Sequence, output, budget)
    {
      var length := data.Length - (off + 4);
      ghost var before, S, out, B := data[..], Sequence, output, budget;
      ghost var frame := Header(length, S) + D0[off + 4..];
      assert before[off + 4..] == D0[off + 4..] by {
        assert before[off..][4..] == before[off + 4..];
      }
      var ok := SendFrame(data, off, Header(length, Sequence), length, frame);
      assert data[..] == before[..off] + frame by {
        assert before[..off] + Header(length, S) + before[off + 4..] == before[..off] + frame;
      }
      err := if ok then None else Some(ErrBadConn);
      LastFrameDone(before, D0, s0, out0, B0, off, S, out, B, ok, err, data[..], output, budget, Sequence);
    }

    /**
     * `WritePacket`: `data` holds 4 reserved header bytes and then the payload.
     * The bytes reaching the transport are those of Frames(payload, counter), cut
     * short by a short write; the call succeeds exactly when all of them fit.  The
     * counter moves once per frame written completely, and every header is
     * written into `data` itself before its frame is sent: on success `data` ends as
     * PatchedBuffer; after a short write it is patched up to and including the
     * header of the failing frame, the one after the CompleteFrames complete ones,
     * and holds the caller's bytes past it.
     */
    method WritePacket(data: array<Byte>) returns (err: Option<PacketError>)
      requires data.Length >= 4
      modifies this`output, this`budget, this`Sequence, data
      ensures var sent := Frames(old(data[4..]), old(Sequence));
        && (err.None? <==> |sent| <= old(budget))
        && (err.Some? ==> err.value == ErrBadConn)
        && output == old(output) + sent[..Min(|sent|, old(budget))]
        && budget == old(budget) - Min(|sent|, old(budget))
      ensures Sequence == Advance(old(Sequence), CompleteFrames(old(data[4..]), old(budget)))
      ensures err.None? ==> data[..] == PatchedBuffer(old(data[..]), old(Sequence))
      ensures err.Some? ==>
        var m := MaxPayloadLen * CompleteFrames(old(data[4..]), old(budget)) + 4;
        m <= data.Length && data[..] == PatchedBuffer(old(data[..]), old(Sequence))[..m] + old(data[..])[m..]
    {
      ghost var D0 := data[..];
      ghost var s0 := Sequence;
      ghost var out0 := output;
      ghost var B0 := budget;
      assert D0[4..] == old(data[4..]);
      assert D0[0..] == D0 && data[..0] == [];
      var length := data.Length - 4;
      var off := 0;
      while length >= MaxPayloadLen
        invariant off + 4 + length == data.Length
        invariant PatchProgress(data[..], D0, s0, off, Sequence)
        invariant SendProgress(D0, s0, out0, B0, off, Sequence, output, budget)
        invariant CountProgress(D0, B0, off, budget)
        decreases length
      {
        var ok := SendFullFrame(data, D0, s0, out0, B0, off);
        if !ok {
          return Some(ErrBadConn);
        }
        length := length - MaxPayloadLen;
        off := off + MaxPayloadLen;
      }
      err := SendLastFrame(data, D0, s0, out0, B0, off);
    }

    /** The framing half of `WritePacketBatch`: appends the frames of `data`'s payload to `total`. */
    method AppendFrames(total: seq<Byte>, data: array<Byte>) returns (acc: seq<Byte>)
      requires data.Length >= 4
      modifies this`Sequence, data
      ensures acc == total + Frames(old(data[4..]), old(Sequence))
      ensures Sequence == Advance(old(Sequence), FrameCount(data.Length - 4))
      ensures data[..] == PatchedBuffer(old(data[..]), old(Sequence))
    {
      acc := total;
      ghost var D0 := data[..];
      ghost var s0 := Sequence;
      assert D0[4..] == old(data[4..]);
      assert D0[0..] == D0 && data[..0] == [];
      var length := data.Length - 4;
      var off := 0;
      while length >= MaxPayloadLen
        invariant off + 4 + length == data.Length
        invariant PatchProgress(data[..], D0, s0, off, Sequence)
        invariant BatchProgress(total, D0, s0, off, acc, Sequence)
        decreases length
      {
        acc := AppendFullFrame(data, D0, s0, total, off, acc);
        length := length - MaxPayloadLen;
        off := off + MaxPayloadLen;
      }
      acc := AppendLastFrame(data, D0, s0, total, off, acc);
    }

    /** One turn of the framing loop of `WritePacketBatch`: a full frame at `off`. */
    method AppendFullFrame(data: array<Byte>, ghost D0: seq<Byte>, ghost s0: Byte, ghost total: seq<Byte>, off: nat, acc: seq<Byte>)
      returns (acc': seq<Byte>)
      requires off + 4 + MaxPayloadLen <= data.Length
      requires PatchProgress(data[..], D0, s0, off, Sequence)
      requires BatchProgress(total, D0, s0, off, acc, Sequence)
      modifies this`Sequence, data
      ensures PatchProgress(data[..], D0, s0, off + MaxPayloadLen, Sequence)
      ensures BatchProgress(total, D0, s0, off + MaxPayloadLen, acc', Sequence)
    {
      ghost var before, S := data[..], Sequence;
      ghost var H := Header(MaxPayloadLen, S);
      assert before[off + 4..] == D0[off + 4..] by {
        assert before[off..][4..] == before[off + 4..];
      }
      PatchHeader(data, off, 0xff, 0xff, 0xff, Sequence);
      assert data[..] == before[..off] + H + D0[off + 4..] by {
        FullLengthBytes();
      }
      assert data[off..off + 4 + MaxPayloadLen] == H + D0[off + 4..off + 4 + MaxPayloadLen] by {
        ConcatSlices(before[..off], H, D0[off + 4..], 4 + MaxPayloadLen);
        assert D0[off + 4..][..MaxPayloadLen] == D0[off + 4..off + 4 + MaxPayloadLen];
      }
      acc' := acc + data[off..off + 4 + MaxPayloadLen];
      Sequence := Advance(Sequence, 1);
      assert PatchProgress(data[..], D0, s0, off + MaxPayloadLen, Sequence) by {
        PatchFullFrame(before, D0, s0, off, S);
      }
      BatchFullFrameStep(total, D0, s0, off, acc, S);
    }

    /** The end of the framing loop of `WritePacketBatch`: the last frame at `off`. */
    method AppendLastFrame(data: array<Byte>, ghost D0: seq<Byte>, ghost s0: Byte, ghost total: seq<Byte>, off: nat, acc: seq<Byte>)
      returns (acc': seq<Byte>)
      requires off + 4 <= data.Length < off + 4 + MaxPayloadLen
      requires PatchProgress(data[..], D0, s0, off, Sequence)
      requires BatchProgress(total, D0, s0, off, acc, Sequence)
      modifies this`Sequence, data
      ensures acc' == total + Frames(D0[4..], s0)
      ensures Sequence == Advance(s0, FrameCount(|D0| - 4))
      ensures data[..] == PatchedBuffer(D0, s0)
    {
      var length := data.Length - (off + 4);
      ghost var before := data[..];
      PatchLastFrame(before, D0, s0, off, Sequence);
      BatchLastFrameStep(total, D0, s0, off, acc, Sequence);
      assert before[off + 4..] == D0[off + 4..];
      PatchHeader(data, off, length % 0x100, (length / 0x100) % 0x100, (length / 0x1_0000) % 0x100, Sequence);
      assert data[..] == before[..off] + Header(length, Sequence) + D0[off + 4..];
      assert data[off..] == Header(length, Sequence) + D0[off + 4..];
      acc' := acc + data[off..];
      Sequence := Advance(Sequence, 1);
    }

    /**
     * `WritePacketBatch`: with no `data`, only `total` is flushed (when `direct`).
     * Otherwise the frames of `data`'s payload are appended to `total`, with the
     * headers patched into `data` as in `WritePacket` and the counter moving once
     * per frame whatever happens to the write; the whole batch is then written
     * when `direct`, and returned.  A short write loses the batch.
     */
    method WritePacketBatch(total: seq<Byte>, data: array?<Byte>, direct: bool) returns (r: Result<seq<Byte>, PacketError>)
      requires data != null ==> data.Length >= 4
      modifies this`output, this`budget, this`Sequence, data
      ensures var all := if data == null then total else total + Frames(old(data[4..]), old(Sequence));
        && (direct ==>
             && r == (if |all| <= old(budget) then Ok(all) else Err(ErrBadConn))
             && output == old(output) + all[..Min(|all|, old(budget))]
             && budget == old(budget) - Min(|all|, old(budget)))
        && (!direct ==> r == Ok(all) && output == old(output) && budget == old(budget))
      ensures data == null ==> Sequence == old(Sequence)
      ensures data != null ==> Sequence == Advance(old(Sequence), FrameCount(data.Length - 4))
      ensures data != null ==> data[..] == PatchedBuffer(old(data[..]), old(Sequence))
    {
      var acc := total;
      if data != null {
        acc := AppendFrames(total, data);
      }
      if direct {
        var ok := Write(acc);
        if !ok {
          return Err(ErrBadConn);
        }
      }
      return Ok(acc);
    }
  }

  /**
   * A payload written by one connection's `WritePacket` and read back by a fresh
   * connection from the bytes written: it comes back whole, with the reader's
   * counter equal to the writer's, unless its length is a multiple of
   * MaxPayloadLen (0 included), in which case the read fails.
   */
  method Loopback(payload: seq<Byte>) returns (r: Result<seq<Byte>, PacketError>, writerSeq: Byte, readerSeq: Byte)
    ensures writerSeq == Advance(0, FrameCount(|payload|))
    ensures |payload| % MaxPayloadLen != 0 ==> r == Ok(payload) && readerSeq == writerSeq
    ensures |payload| % MaxPayloadLen == 0 ==> r.Err?
  {
    var data := new Byte[|payload| + 4](i requires 0 <= i < |payload| + 4 => if i < 4 then 0 else payload[i - 4]);
    assert data[4..] == payload;
    FramesLength(payload, 0);
    CompleteFramesBound(payload, 0, |Frames(payload, 0)|);
    var writer := new PacketIO([], |Frames(payload, 0)|);
    var err := writer.WritePacket(data);
    assert writer.output == Frames(payload, 0);
    writerSeq := writer.Sequence;
    var reader := new PacketIO(writer.output, 0);
    assert reader.input[reader.pos..] == Frames(payload, 0) + [];
    r := reader.ReadPacket();
    readerSeq := reader.Sequence;
    if |payload| % MaxPayloadLen != 0 {
      ReadWriteRoundTrip(payload, 0, []);
    } else {
      MultipleOfMaxUnreadable(payload, 0, []);
    }
  }

  /** `Loopback` with the corrected reader: every payload comes back whole, and the counters agree. */
  method LoopbackAcceptingEmptyFrame(payload: seq<Byte>) returns (r: Result<seq<Byte>, PacketError>, writerSeq: Byte, readerSeq: Byte)
    ensures r == Ok(payload)
    ensures readerSeq == writerSeq == Advance(0, FrameCount(|payload|))
  {
    var data := new Byte[|payload| + 4](i requires 0 <= i < |payload| + 4 => if i < 4 then 0 else payload[i - 4]);
    assert data[4..] == payload;
    FramesLength(payload, 0);
    CompleteFramesBound(payload, 0, |Frames(payload, 0)|);
    var writer := new PacketIO([], |Frames(payload, 0)|);
    var err := writer.WritePacket(data);
    writerSeq := writer.Sequence;
    var reader := new PacketIO(writer.output, 0);
    assert reader.input[reader.pos..] == Frames(payload, 0) + [];
    r := reader.ReadPacketAcceptingEmptyFrame();
    readerSeq := reader.Sequence;
    IntendedRoundTrip(payload, 0, []);
  }
}

=== FILE: wrappers.dfy ===
/** Failure-carrying return values shared by the packet layer and the pool. */
module Wrappers {

  datatype Option<+T> = None | Some(value: T)

  /** A Go `(value, error)` pair in which exactly one side is meaningful. */
  datatype Result<+T, +E> = Ok(value: T) | Err(error: E)
}
